=== FILE: README.md ===
# tinvest, modelled in Dafny

This project models the core of `tinvest`, a Python client for the Tinkoff
Investments OpenAPI. The model covers two parts.

- **The REST side.** There are 21 request builders (`tinvest/apis.py`). The
  `AsyncClient` and `SyncClient` classes (`tinvest/clients.py`) cover
  construction, the shared `_request` and the delegation of every public
  method. The helpers are `set_default_headers`, `isoformat` and
  `validate_token` (`tinvest/utils.py`), plus the URL constants
  (`tinvest/constants.py`).
- **The streaming side** (`tinvest/streaming.py`). It covers the per-kind
  subscription registries (`_BaseEventAPI` and its `CandleAPI`, `OrderbookAPI`
  and `InstrumentInfoAPI`) and their subscribe and unsubscribe messages. It
  also covers `_parse_response`, `_handle_ws`, `_connect` and `_run`, `stop`,
  and the consumer iteration `__aiter__`.
- **The schemas they use** (`tinvest/schemas.py`): `CandleResolution`, `Event`,
  the request bodies, the streaming responses and the three subscription
  records with their `__hash__`.

Everything is a pure function over immutable datatypes.

- **REST requests.** A builder returns the `request(...)` call it would make, as
  a `Request` descriptor: method, path, response model, and keyword arguments
  (`params`, `data`).
- **REST responses.** The transport's response is a parameter, and `_request`
  becomes `Perform`: the call it issues plus the outcome of the status dispatch.
- **Streaming state.** The client is a `Streaming` value holding:
  - the three registries, each a set plus the socket state (`Detached`, or
    `Attached(open)`);
  - the queue;
  - a trace of effects: messages transmitted, items enqueued, and the `ready` and
    `ws_is_closed` event changes.
- **Connection attempts.** These are an input sequence of outcomes. An attempt is
  refused with an exception, or opened and followed by the messages the socket
  delivers.

Modules follow the source files:

| module | file |
|---|---|
| `Wrappers` | `wrappers.dfy` |
| `Exceptions` | `exceptions.dfy` |
| `Constants` | `constants.dfy` |
| `Typedefs` | `typedefs.dfy` |
| `Schemas` | `schemas.dfy` |
| `Utils` | `utils.dfy` |
| `Apis` | `apis.dfy` |
| `Clients` | `clients.dfy` |
| `EventApis` | `event_api.dfy` |
| `StreamingClient` | `streaming.dfy` |

Each operation is paired with a partner it is checked against:

- **Builders:**
  - `Decode` reads a request back into the call that made it (`DecodeBuild`,
    `BuildDistinguishes`);
  - `EndpointAt` is an independent endpoint table (`BuildTargetsEndpoint`).
- **Subscription messages:** `ParseAction` and `ParseWireJson` read a message
  back (`ActionEventRoundTrip`, `WireJsonRoundTrip`).
- **Frames:** `RenderFrame` and `Untyped` are the inverses of the two parsing
  steps (`ParseRawRoundTrip`, `ParseResponseRoundTrip`, `ParseResponseFaithful`).
- **Queue:** `Items` is the inverse of `Drain` (`DrainUpToSentinel`).
- **Base URLs:** `IsSandboxUrl` reads `GetBaseUrl` back (`BaseUrlRoundTrip`).

Some consequences of the code are easy to miss. The model follows the code in each of them:

- **A subscribe before the socket is open is dropped.** `_send` returns `False`
  with no socket, before the registry is touched. The record is not kept for a
  later replay (`SubscribeBeforeConnectIsDropped`).
- **Registry membership uses field-wise equality.** The `__hash__` overrides
  ignore `request_id`, but pydantic equality compares every field. Two records
  that differ only in `request_id` are both kept (`RequestIdSeparatesRecords`,
  `HashKeyCoarserThanEquality`).
- **A frame that fails validation is not dropped.** It raises
  `ValidationError` out of `_handle_ws`, and `_connect` catches only timeouts
  and connector errors, so the error ends `_run` (`ReceiveStopsAtInvalidFrame`,
  `RunCrashesOnInvalidFrame`).
- **Replay order is unspecified.** It iterates a Python set, so it follows an
  arbitrary enumeration. The model takes the order as a parameter, constrained
  to list each registered record exactly once.
- **Without reconnect, a closed session raises.** `_run` calls `_connect` once,
  so `_ClosedSessionError` escapes it (`RunWithoutReconnectRaisesOnClosedSession`).

## Model

| member | source | states |
|---|---|---|
| Constants.GetBaseUrl | tinvest/constants.py:8-12 | the sandbox URL exactly when `use_sandbox` is set, the production URL exactly when it is not |
| Constants.BaseUrlRoundTrip | tinvest/constants.py:8-12 | the mode can be read back from the chosen URL, and the URL is always one of the two constants |
| Constants.SandboxExtendsProduction | tinvest/constants.py:3-4 | SANDBOX is PRODUCTION followed by `/sandbox` |
| Utils.SetDefaultHeaders | tinvest/utils.py:18-22 | adds `accept` and `Authorization` only when absent, never overwrites an existing header, and changes no key of the data but `headers` |
| Utils.SetDefaultHeadersIdempotent | tinvest/utils.py:18-22 | applying the defaults twice, with any second token, gives the result of applying them once |
| Utils.SetDefaultHeadersOnEmpty | tinvest/utils.py:18-22 | on empty data the result is exactly the `accept` and `Authorization: Bearer <token>` headers |
| Utils.SetDefaultHeadersKeepsCallerHeaders | tinvest/utils.py:18-22 | a caller's own `Authorization` and custom headers survive, and only `accept` is added |
| Utils.Isoformat | tinvest/utils.py:54-57 | a string argument is returned unchanged, and a datetime renders with the `+00:00` UTC offset |
| Utils.IsoformatExamples | tinvest/utils.py:54-57 | the string and the naive-datetime forms of midnight 2000-01-01 render to the same text |
| Utils.ValidateToken | tinvest/utils.py:60-62 | raises `ValueError('Token can not be empty')` exactly for the empty token |
| Schemas.ParseResolution | tinvest/schemas.py:91-102 | enum lookup by value: a found interval has that wire value, and a miss means no interval has it |
| Schemas.ResolutionRoundTrip | tinvest/schemas.py:91-102 | every interval is found again from its wire value |
| Schemas.ResolutionsAreEleven | tinvest/schemas.py:91-102 | exactly 11 intervals, pairwise distinct wire values, the set `1min` to `month` |
| Schemas.ResolutionValueNames | tinvest/schemas.py:91-102 | the wire values are exactly the eleven names |
| Schemas.ParseEvent | tinvest/schemas.py:520-524 | lookup of an event tag by value: a hit has that value, and a miss matches no tag |
| Schemas.EventRoundTrip | tinvest/schemas.py:520-524 | every event tag is found again from its value |
| Schemas.EventsAreFour | tinvest/schemas.py:520-524 | exactly four tags with four distinct values: candle, orderbook, instrument_info and error |
| Schemas.EventValueNames | tinvest/schemas.py:520-524 | the tag values are exactly those four names |
| Schemas.TinkoffRegisterRequest | tinvest/schemas.py:471-473 | `SandboxRegisterRequest.tinkoff()` has account type `Tinkoff` |
| Schemas.TinkoffIisRegisterRequest | tinvest/schemas.py:475-477 | `tinkoff_iis()` has account type `TinkoffIis` |
| Schemas.HashKeyIgnoresRequestId | tinvest/schemas.py:557-580 | each record's hash key ignores `request_id`: (figi, interval), (figi, depth), (figi) |
| Schemas.HashKeyCoarserThanEquality | tinvest/schemas.py:557-580 | some unequal records, differing only in `request_id`, share a hash key |
| Schemas.HashKey | tinvest/schemas.py:557-580 | the hashed tuple of a record: same kind, same figi, and the interval for candles or the depth for order books |
| Schemas.HashKeyDeterminesRecord | tinvest/schemas.py:557-580 | records with one key have the same kind and agree on every field but `request_id` |
| Apis.AccountParams | tinvest/apis.py:89-93 | `brokerAccountId` is a parameter exactly when the argument is truthy, and then carries it; otherwise the params are empty |
| Apis.SandboxRegisterPost | tinvest/apis.py:64-78 | POST `/sandbox/register` with the body as `data` and no `params` key |
| Apis.SandboxCurrenciesBalancePost | tinvest/apis.py:81-100 | POST `/sandbox/currencies/balance`: account-scoped params and the body as data |
| Apis.SandboxPositionsBalancePost | tinvest/apis.py:103-117 | POST `/sandbox/positions/balance`: account-scoped params and the body as data |
| Apis.SandboxRemovePost | tinvest/apis.py:120-130 | POST `/sandbox/remove`: account-scoped params only |
| Apis.SandboxClearPost | tinvest/apis.py:133-143 | POST `/sandbox/clear`: account-scoped params only |
| Apis.OrdersGet | tinvest/apis.py:146-156 | GET `/orders`: account-scoped params only |
| Apis.OrdersLimitOrderPost | tinvest/apis.py:159-178 | POST `/orders/limit-order`: `figi` always, `brokerAccountId` when truthy, the body as data |
| Apis.OrdersMarketOrderPost | tinvest/apis.py:181-197 | POST `/orders/market-order`: `figi` always, `brokerAccountId` when truthy, the body as data |
| Apis.OrdersCancelPost | tinvest/apis.py:200-212 | POST `/orders/cancel`: `orderId` always, `brokerAccountId` when truthy |
| Apis.PortfolioGet | tinvest/apis.py:215-225 | GET `/portfolio`: account-scoped params only |
| Apis.PortfolioCurrenciesGet | tinvest/apis.py:228-243 | GET `/portfolio/currencies`: account-scoped params only |
| Apis.MarketStocksGet | tinvest/apis.py:246-256 | GET `/market/stocks` with no keyword arguments at all |
| Apis.MarketBondsGet | tinvest/apis.py:259-269 | GET `/market/bonds` with no keyword arguments at all |
| Apis.MarketEtfsGet | tinvest/apis.py:272-282 | GET `/market/etfs` with no keyword arguments at all |
| Apis.MarketCurrenciesGet | tinvest/apis.py:285-295 | GET `/market/currencies` with no keyword arguments at all |
| Apis.MarketOrderbookGet | tinvest/apis.py:298-314 | GET `/market/orderbook` with params exactly `{figi, depth}` |
| Apis.MarketCandlesGet | tinvest/apis.py:317-332 | GET `/market/candles` with params exactly figi, the rendered `from` and `to`, and the interval's wire value |
| Apis.MarketSearchByFigiGet | tinvest/apis.py:335-349 | GET `/market/search/by-figi` with params exactly `{figi}` |
| Apis.MarketSearchByTickerGet | tinvest/apis.py:352-366 | GET `/market/search/by-ticker` with params exactly `{ticker}` |
| Apis.OperationsGet | tinvest/apis.py:369-386 | GET `/operations`: rendered `from` and `to` always, `figi` and `brokerAccountId` exactly when truthy |
| Apis.AccountsGet | tinvest/apis.py:389-396 | GET `/user/accounts` with no keyword arguments at all |
| Clients.NewClient | tinvest/clients.py:78-91 | the constructor raises exactly on an empty token, and otherwise picks the sandbox URL exactly when `use_sandbox` is set |
| Clients.PrepareCall | tinvest/clients.py:100-105 | URL is base URL plus path; default headers are added; other keyword arguments pass through; the async client adds `raise_for_status=False` |
| Clients.Dispatch | tinvest/clients.py:107-117 | 200 parses into the response model; 400 raises `BadRequestError(text)`; 429 raises `TooManyRequestsError`; any other status raises `UnexpectedError(status, text)` |
| Clients.Perform | tinvest/clients.py:100-117 | one `_request`. The call goes to base URL plus path with the method given, and both `accept` and `Authorization` headers are present. The result parses the body into the response model exactly on status 200. Otherwise 400 raises `BadRequestError(text)`, 429 raises `TooManyRequestsError`, and any other status raises `UnexpectedError(status, text)` |
| Clients.AsyncRequestExample | tinvest/clients.py:100-105 | the async client's call for a GET with params carries both default headers, the params and `raise_for_status=False` |
| Clients.Build | tinvest/apis.py:64-396 | no builder passes any keyword argument but `params` and `data`; in particular none sets headers, which `_request` adds |
| Clients.BuildTargetsEndpoint | tinvest/clients.py:539-733 | every public method requests the method, path and response model listed for it in an independent endpoint table |
| Clients.BuildKeywordArguments | tinvest/apis.py:64-396 | `params` is passed by every method except the listings and account registration; `data` is passed exactly by the five methods with a body |
| Clients.Call | tinvest/clients.py:100-117 | a public method call goes to base URL plus its endpoint path with the default headers, and succeeds exactly on status 200, with its endpoint's model |
| Clients.RouteAtEndpoint | tinvest/apis.py:64-396 | the 21 endpoint paths are pairwise distinct, so a path names its endpoint |
| Clients.DecodeBuild | tinvest/apis.py:64-396 | a built request reads back to the call that made it, up to falsy optional strings and datetime rendering |
| Clients.BuildNormalize | tinvest/apis.py:89-93 | falsy optional strings, and a datetime versus its rendering, do not change the request |
| Clients.BuildDistinguishes | tinvest/clients.py:122-483 | two calls build the same request exactly when they agree after that normalization |
| EventApis.NewEventApi | tinvest/streaming.py:253-255 | a new event API has no socket and an empty registry |
| EventApis.ActionEvent | tinvest/streaming.py:257-263 | the `<kind>:subscribe` / `<kind>:unsubscribe` name of an API reads back as its kind and action |
| EventApis.PayloadJson | tinvest/streaming.py:290 | `payload.dict()` always carries `figi` and `request_id`, and the record can be read back from it |
| EventApis.ActionEventRoundTrip | tinvest/streaming.py:257-263 | `<kind>:subscribe` and `<kind>:unsubscribe` read back to their kind and action |
| EventApis.ActionEventInjective | tinvest/streaming.py:257-263 | two event names are equal exactly when kind and action are |
| EventApis.WireJson | tinvest/streaming.py:290 | the message sent is the record's fields plus the `event` key |
| EventApis.WireJsonRoundTrip | tinvest/streaming.py:290 | the sent JSON reads back to the same event name and record |
| EventApis.Send | tinvest/streaming.py:276-291 | with no open socket, nothing changes and nothing is sent. Subscribing adds the record and sends `<kind>:subscribe`. Unsubscribing a present record removes it and sends `<kind>:unsubscribe`. Unsubscribing an absent record raises `KeyError` and sends nothing. No other record changes |
| EventApis.SubscribeIdempotent | tinvest/streaming.py:284 | subscribing an equal record again leaves the registry as it was |
| EventApis.SubscribeThenUnsubscribe | tinvest/streaming.py:283-288 | subscribing then unsubscribing a new record restores the registry |
| EventApis.UnsubscribeUnknownRaises | tinvest/streaming.py:287 | unsubscribing an absent record on an open socket raises `KeyError` |
| EventApis.RequestIdSeparatesRecords | tinvest/schemas.py:557-564 | records that differ only in `request_id` hash alike, yet both are kept in the registry |
| EventApis.SendKeepsWellKinded | tinvest/streaming.py:294-359 | an API whose registry holds only its own kind keeps that property |
| EventApis.ResubscribeEach | tinvest/streaming.py:268-270 | re-sending registered records leaves the registry unchanged and announces each one |
| EventApis.UnsubscribeEach | tinvest/streaming.py:272-274 | unsubscribing distinct registered records removes exactly them and announces each |
| EventApis.SendEachWithoutSocket | tinvest/streaming.py:279-280 | without an open socket a whole run of sends changes nothing and sends nothing |
| EventApis.SendEach | tinvest/streaming.py:268-274 | the loop of `_subscribe_all` and `_unsubscribe_all`. It changes nothing without an open socket, and subscribing never raises. Only an unsubscribe on an open socket can raise, and then `KeyError`. On an open socket the messages are one per listed record, in order. Records not listed keep their membership, and kind and socket are unchanged |
| EventApis.SubscribeAll | tinvest/streaming.py:268-270 | `_subscribe_all` keeps the registry and, on an open socket, sends one subscribe per record |
| EventApis.UnsubscribeAll | tinvest/streaming.py:272-274 | `_unsubscribe_all` on an open socket empties the registry with one unsubscribe per record, and without one does nothing |
| StreamingClient.ParseRaw | tinvest/streaming.py:208 | a frame parses exactly when its event tag is one of the four, and keeps its time and payload |
| StreamingClient.ParseRawRoundTrip | tinvest/streaming.py:208 | a rendered frame parses back to itself |
| StreamingClient.ParseResponse | tinvest/streaming.py:231-247 | each tag is routed to the response variant carrying that same tag; a payload of the wrong shape raises `ValidationError` |
| StreamingClient.ParseResponseRoundTrip | tinvest/schemas.py:533-554 | each typed response is recovered from its untyped form |
| StreamingClient.ParseResponseFaithful | tinvest/streaming.py:231-247 | a parsed response loses nothing: its untyped form is the input |
| StreamingClient.MismatchedPayloadRejected | tinvest/streaming.py:231-247 | a payload that does not fit its tag is rejected |
| StreamingClient.NewStreaming | tinvest/streaming.py:84-113 | the constructor rejects an empty token; it keeps the token, the reconnect flag and the given session's closed flag, and starts with empty registries, no socket on any API, an empty queue and an empty trace |
| StreamingClient.Request | tinvest/streaming.py:297-359 | a public subscribe or unsubscribe behaves as `_send` on the API of the record's kind. That API keeps its kind and socket, the APIs of the other kinds are unchanged, and the token, reconnect flag, queue and session are untouched. Only the named record's membership can change |
| StreamingClient.RequestKeepsValid | tinvest/streaming.py:297-359 | each registry keeps holding only its own kind |
| StreamingClient.SubscribeBeforeConnectIsDropped | tinvest/streaming.py:279-280 | a subscribe on a new client, before any connection, is not recorded |
| StreamingClient.Replay | tinvest/streaming.py:218-222 | `_subscribe` transmits the candle, then the instrument_info, then the orderbook announcements, and changes nothing else |
| StreamingClient.Unsubscribe | tinvest/streaming.py:224-228 | `_unsubscribe` transmits all three registries' unsubscribes in the same order and empties every registry with an open socket |
| StreamingClient.ReceiveEnqueuesInOrder | tinvest/streaming.py:206-211 | well-formed text frames are enqueued in arrival order, none dropped |
| StreamingClient.ReceiveStopsAtInvalidFrame | tinvest/streaming.py:207-209 | a frame failing validation ends the loop with `ValidationError` |
| StreamingClient.ReceiveStopsAtClose | tinvest/streaming.py:213-216 | a CLOSED or ERROR message ends the loop without an error |
| StreamingClient.ReceiveSkipsOther | tinvest/streaming.py:206-216 | a message that is not TEXT, CLOSED or ERROR (a binary one, say) matches no branch: the loop carries on as if any run of such messages had not arrived |
| StreamingClient.Receive | tinvest/streaming.py:205-216 | the receive loop accepts no more responses than frames. Each accepted response arrived as a text frame. An error ending the loop is a validation error or a fault the socket delivered |
| StreamingClient.HandleWsReplaysBeforeReady | tinvest/streaming.py:198-216 | all three registries are announced before ready is set, and afterwards there are only enqueues |
| StreamingClient.HandleWsTrace | tinvest/streaming.py:198-216 | the handler's effects, exactly: the replay of candle, instrument_info and orderbook records, ready set, then one enqueue per accepted response |
| StreamingClient.HandleWs | tinvest/streaming.py:198-216 | the handler attaches the open socket to every API and keeps the registries. It queues exactly what the receive loop accepted, in order, after what was queued, and raises what the loop raised |
| StreamingClient.Connect | tinvest/streaming.py:157-188 | A closed session sets ready and ws-closed, then raises. A timeout or connector error on connecting ends normally, and any other error propagates. An opened socket puts what the receive loop accepted on the queue, in order. A transient handler fault is absorbed and any other propagates. Its trace is exactly: ws-closed cleared, the replay of every registry, ready set, the enqueues, then ws-closed set and ready cleared. The socket ends closed, and the registries and kinds are kept |
| StreamingClient.Session | tinvest/streaming.py:165-188 | one opened connection: every API ends holding the closed socket, the queue grows by what the receive loop accepted, the loop's error is raised unless transient, and the trace is the connection's full replay-ready-enqueue-close sequence |
| StreamingClient.RunWithoutReconnectConnectsOnce | tinvest/streaming.py:147-149 | with reconnect disabled, `_run` is one `_connect`: later attempts are ignored, and the run ends with that call's state, finishing when it returns and raising exactly its exception otherwise |
| StreamingClient.RunEndsOnClosedSession | tinvest/streaming.py:151-155 | with reconnect enabled, a closed session ends the loop normally |
| StreamingClient.RunWithoutReconnectRaisesOnClosedSession | tinvest/streaming.py:147-149 | with reconnect disabled, a closed session's error escapes `_run` |
| StreamingClient.RunRetriesTransientFailures | tinvest/streaming.py:151-155 | with reconnect enabled, timeouts and connector errors are retried indefinitely |
| StreamingClient.RunCrashesOnInvalidFrame | tinvest/streaming.py:178-183 | an invalid frame is not caught by `_connect` and ends `_run` with `ValidationError` |
| StreamingClient.RunLoop | tinvest/streaming.py:146-155 | `_run` keeps the registries and only grows the queue and trace. It never crashes with a transient error. With reconnect, a `_connect` that returns normally is followed by a `_connect` on the next attempt, and `_ClosedSessionError` never ends it as an error. With reconnect, a `_connect` that raises ends the run with that call's state, finishing on `_ClosedSessionError` and crashing with exactly the raised exception otherwise. Without reconnect the run's state is the one `_connect`'s, and it crashes exactly when that call raises, with that exception |
| StreamingClient.RunAfterConnection | tinvest/streaming.py:151-155 | with reconnect, the run keeps the trace and queue its first `_connect` left, and if that call returned normally the run goes on from its state with the remaining attempts |
| StreamingClient.RunReconnectsAndReplays | tinvest/streaming.py:151-155 | with reconnect, after a connection ends without a fatal error the next one replays every registry again and sets ready again: the trace holds both connections' full sequences in order, and the queue keeps the responses of both |
| StreamingClient.Stop | tinvest/streaming.py:137-142 | `stop` sends every unsubscribe, then enqueues the sentinel, then the open socket is closed (ws-closed set) and the session closed. No API can send afterwards |
| StreamingClient.RequestAfterStopIsDropped | tinvest/streaming.py:279-280 | after `stop`, any subscribe or unsubscribe returns without sending or changing anything |
| StreamingClient.StopUnsubscribesBeforeSentinel | tinvest/streaming.py:137-139 | every record live on an open socket at `stop` has its unsubscribe transmitted before the sentinel is enqueued |
| StreamingClient.Drain | tinvest/streaming.py:123-129 | the consumer yields the responses before the first sentinel, in order, and stops there; without a sentinel it takes everything |
| StreamingClient.DrainUpToSentinel | tinvest/streaming.py:123-129 | the consumer takes every response queued before the sentinel, in order, and leaves what follows it |
| StreamingClient.Consume | tinvest/streaming.py:123-131 | iteration yields the queue up to the sentinel and leaves what follows it. Once the sentinel is reached, the `finally` transmits one unsubscribe per record on an open socket, in the `_unsubscribe` order, and empties those registries. With no sentinel everything queued is yielded |
| StreamingClient.StopThenConsume | tinvest/streaming.py:123-139 | after `stop`, the consumer yields exactly the responses pending before it, finishes, and sends nothing more |

## Left out

- asyncio coordination is not modelled. This covers the `_ready`, `_closing` and `_ws_is_closed` events as synchronisation, the `_close_ws` task, `start` awaiting readiness and the unused `_lock`. The ready and ws-closed changes appear only as entries in the effect trace.
- Sleeps, `reconnect_timeout`, heartbeat and receive-timeout values are left out: they are timing only.
- The aiohttp and requests sessions, `ws_connect`, `send_json` and socket reads are I/O. The socket is an open or closed flag, and a connection attempt is an input outcome. A failure inside `send_json` is not modelled.
- pydantic parsing and serialisation are left out (`parse_raw`, `parse_obj`, `.json()`, `.dict()`).
  - A request body is passed as a value, not as its JSON text.
  - An inbound payload is given as the record shape it validates as.
  - A payload dictionary that could validate as several shapes is not modelled.
- `Decimal` fields are exact rationals, and `datetime` fields are plain field records.
- The early-exit cleanup of the `__aiter__` generator (a consumer that breaks out) is not modelled. Neither is `__aexit__`'s return value.
- `Func` and `run_in_threadpool` are left out: they concern the thread pool.
- The REST response record schemas are left out, because they carry no behaviour. A parsed body is the response model plus the raw text.
- `BadRequestError` parsing its text as JSON is not modelled; the error keeps the text.
- Utils.Isoformat: the datetime branch is an own rendering of a naive `datetime` with a UTC offset, not Python's timezone library. The contract states only the string branch exactly, plus the `+00:00` suffix of the datetime branch.
- EventApis.SubscribeAll and EventApis.UnsubscribeAll take the iteration order of the registry set as a parameter, because Python fixes no order. The contracts hold for every enumeration.
- StreamingClient.Transmissions states only the length of the trace; `TransmissionsAt` states its entries.
- StreamingClient.Stop: the wait on `_ws_is_closed` is not modelled, and the model takes the socket's close as done when `stop` returns. Reading the source, if no connection ever opened and the session is still open, `stop` never returns: `_ws_is_closed` starts unset and nothing on that path sets it. The model returns in that case.
- `SubscriptionElreadyExists` is declared but never raised, so it has no counterpart.

=== FILE: apis.dfy ===
/** The 21 REST request builders. Each makes exactly one call of the injected
    transport; the call is returned here as a `Request` descriptor:
    method, path, response model and the keyword arguments (`params`, `data`). */
module Apis {
  import opened Wrappers
  import opened Typedefs
  import opened Schemas
  import opened Utils

  datatype HttpMethod = GET | POST

  /** `request(method, path, response_model=model, **kwargs)`; the HTTP method is `verb` here. */
  datatype Request = Request(verb: HttpMethod, path: string, responseModel: ResponseModel, kwargs: Kwargs)

  /** The `params` keyword argument, if the builder passed one. */
  function ParamsOf(r: Request): Option<Params> {
    if "params" in r.kwargs && r.kwargs["params"].ParamsArg? then Some(r.kwargs["params"].params) else None
  }

  /** The `data` keyword argument, if the builder passed one. */
  function DataOf(r: Request): Option<RequestBody> {
    if "data" in r.kwargs && r.kwargs["data"].DataArg? then Some(r.kwargs["data"].body) else None
  }

  /** The request targets this endpoint. */
  predicate Targets(r: Request, verb: HttpMethod, path: string, model: ResponseModel) {
    r.verb == verb && r.path == path && r.responseModel == model
  }

  /** `brokerAccountId` is a parameter exactly when the argument is truthy, and then it is passed as given. */
  predicate AccountScoped(p: Params, brokerAccountId: Option<string>) {
    && ("brokerAccountId" in p <==> Truthy(brokerAccountId))
    && ("brokerAccountId" in p ==> p["brokerAccountId"] == PStr(brokerAccountId.value))
  }

  /** The conditional `brokerAccountId` entry shared by the account-scoped builders. */
  function AccountParams(brokerAccountId: Option<string>): (p: Params)
    ensures AccountScoped(p, brokerAccountId)
    ensures p.Keys <= {"brokerAccountId"}
  {
    if Truthy(brokerAccountId) then map["brokerAccountId" := PStr(brokerAccountId.value)] else map[]
  }

  // ---------------------------------------------------------------------------
  // Sandbox
  // ---------------------------------------------------------------------------

  /** POST /sandbox/register: the body as data, no params key. */
  function SandboxRegisterPost(body: SandboxRegisterRequest): (r: Request)
    ensures Targets(r, POST, "/sandbox/register", SandboxRegisterResponse)
    ensures r.kwargs.Keys == {"data"} && DataOf(r) == Some(RegisterBody(body))
  {
    Request(POST, "/sandbox/register", SandboxRegisterResponse, map["data" := DataArg(RegisterBody(body))])
  }

  /** POST /sandbox/currencies/balance: account-scoped params, the body as data. */
  function SandboxCurrenciesBalancePost(body: SandboxSetCurrencyBalanceRequest, brokerAccountId: Option<string>): (r: Request)
    ensures Targets(r, POST, "/sandbox/currencies/balance", Empty)
    ensures r.kwargs.Keys == {"params", "data"}
    ensures ParamsOf(r).Some? && ParamsOf(r).value.Keys <= {"brokerAccountId"}
    ensures AccountScoped(ParamsOf(r).value, brokerAccountId)
    ensures DataOf(r) == Some(CurrencyBalanceBody(body))
  {
    Request(POST, "/sandbox/currencies/balance", Empty,
      map["params" := ParamsArg(AccountParams(brokerAccountId)), "data" := DataArg(CurrencyBalanceBody(body))])
  }

  /** POST /sandbox/positions/balance: account-scoped params, the body as data. */
  function SandboxPositionsBalancePost(body: SandboxSetPositionBalanceRequest, brokerAccountId: Option<string>): (r: Request)
    ensures Targets(r, POST, "/sandbox/positions/balance", Empty)
    ensures r.kwargs.Keys == {"params", "data"}
    ensures ParamsOf(r).Some? && ParamsOf(r).value.Keys <= {"brokerAccountId"}
    ensures AccountScoped(ParamsOf(r).value, brokerAccountId)
    ensures DataOf(r) == Some(PositionBalanceBody(body))
  {
    Request(POST, "/sandbox/positions/balance", Empty,
      map["params" := ParamsArg(AccountParams(brokerAccountId)), "data" := DataArg(PositionBalanceBody(body))])
  }

  /** POST /sandbox/remove: account-scoped params only. */
  function SandboxRemovePost(brokerAccountId: Option<string>): (r: Request)
    ensures Targets(r, POST, "/sandbox/remove", Empty)
    ensures r.kwargs.Keys == {"params"}
    ensures ParamsOf(r).Some? && ParamsOf(r).value.Keys <= {"brokerAccountId"}
    ensures AccountScoped(ParamsOf(r).value, brokerAccountId)
  {
    Request(POST, "/sandbox/remove", Empty, map["params" := ParamsArg(AccountParams(brokerAccountId))])
  }

  /** POST /sandbox/clear: account-scoped params only. */
  function SandboxClearPost(brokerAccountId: Option<string>): (r: Request)
    ensures Targets(r, POST, "/sandbox/clear", Empty)
    ensures r.kwargs.Keys == {"params"}
    ensures ParamsOf(r).Some? && ParamsOf(r).value.Keys <= {"brokerAccountId"}
    ensures AccountScoped(ParamsOf(r).value, brokerAccountId)
  {
    Request(POST, "/sandbox/clear", Empty, map["params" := ParamsArg(AccountParams(brokerAccountId))])
  }

  // ---------------------------------------------------------------------------
  // Orders
  // ---------------------------------------------------------------------------

  /** GET /orders: account-scoped params only. */
  function OrdersGet(brokerAccountId: Option<string>): (r: Request)
    ensures Targets(r, GET, "/orders", OrdersResponse)
    ensures r.kwargs.Keys == {"params"}
    ensures ParamsOf(r).Some? && ParamsOf(r).value.Keys <= {"brokerAccountId"}
    ensures AccountScoped(ParamsOf(r).value, brokerAccountId)
  {
    Request(GET, "/orders", OrdersResponse, map["params" := ParamsArg(AccountParams(brokerAccountId))])
  }

  /** POST /orders/limit-order: `figi` always, `brokerAccountId` when truthy, the body as data. */
  function OrdersLimitOrderPost(figi: string, body: LimitOrderRequest, brokerAccountId: Option<string>): (r: Request)
    ensures Targets(r, POST, "/orders/limit-order", LimitOrderResponse)
    ensures r.kwargs.Keys == {"params", "data"}
    ensures ParamsOf(r).Some? && ParamsOf(r).value.Keys <= {"figi", "brokerAccountId"}
    ensures "figi" in ParamsOf(r).value && ParamsOf(r).value["figi"] == PStr(figi)
    ensures AccountScoped(ParamsOf(r).value, brokerAccountId)
    ensures DataOf(r) == Some(LimitOrderBody(body))
  {
    var params := AccountParams(brokerAccountId)["figi" := PStr(figi)];
    Request(POST, "/orders/limit-order", LimitOrderResponse,
      map["params" := ParamsArg(params), "data" := DataArg(LimitOrderBody(body))])
  }

  /** POST /orders/market-order: `figi` always, `brokerAccountId` when truthy, the body as data. */
  function OrdersMarketOrderPost(figi: string, body: MarketOrderRequest, brokerAccountId: Option<string>): (r: Request)
    ensures Targets(r, POST, "/orders/market-order", MarketOrderResponse)
    ensures r.kwargs.Keys == {"params", "data"}
    ensures ParamsOf(r).Some? && ParamsOf(r).value.Keys <= {"figi", "brokerAccountId"}
    ensures "figi" in ParamsOf(r).value && ParamsOf(r).value["figi"] == PStr(figi)
    ensures AccountScoped(ParamsOf(r).value, brokerAccountId)
    ensures DataOf(r) == Some(MarketOrderBody(body))
  {
    var params := AccountParams(brokerAccountId)["figi" := PStr(figi)];
    Request(POST, "/orders/market-order", MarketOrderResponse,
      map["params" := ParamsArg(params), "data" := DataArg(MarketOrderBody(body))])
  }

  /** POST /orders/cancel: `orderId` always, `brokerAccountId` when truthy. */
  function OrdersCancelPost(orderId: string, brokerAccountId: Option<string>): (r: Request)
    ensures Targets(r, POST, "/orders/cancel", Empty)
    ensures r.kwargs.Keys == {"params"}
    ensures ParamsOf(r).Some? && ParamsOf(r).value.Keys <= {"orderId", "brokerAccountId"}
    ensures "orderId" in ParamsOf(r).value && ParamsOf(r).value["orderId"] == PStr(orderId)
    ensures AccountScoped(ParamsOf(r).value, brokerAccountId)
  {
    var params := AccountParams(brokerAccountId)["orderId" := PStr(orderId)];
    Request(POST, "/orders/cancel", Empty, map["params" := ParamsArg(params)])
  }

  // ---------------------------------------------------------------------------
  // Portfolio
  // ---------------------------------------------------------------------------

  /** GET /portfolio: account-scoped params only. */
  function PortfolioGet(brokerAccountId: Option<string>): (r: Request)
    ensures Targets(r, GET, "/portfolio", PortfolioResponse)
    ensures r.kwargs.Keys == {"params"}
    ensures ParamsOf(r).Some? && ParamsOf(r).value.Keys <= {"brokerAccountId"}
    ensures AccountScoped(ParamsOf(r).value, brokerAccountId)
  {
    Request(GET, "/portfolio", PortfolioResponse, map["params" := ParamsArg(AccountParams(brokerAccountId))])
  }

  /** GET /portfolio/currencies: account-scoped params only. */
  function PortfolioCurrenciesGet(brokerAccountId: Option<string>): (r: Request)
    ensures Targets(r, GET, "/portfolio/currencies", PortfolioCurrenciesResponse)
    ensures r.kwargs.Keys == {"params"}
    ensures ParamsOf(r).Some? && ParamsOf(r).value.Keys <= {"brokerAccountId"}
    ensures AccountScoped(ParamsOf(r).value, brokerAccountId)
  {
    Request(GET, "/portfolio/currencies", PortfolioCurrenciesResponse,
      map["params" := ParamsArg(AccountParams(brokerAccountId))])
  }

  // ---------------------------------------------------------------------------
  // Market
  // ---------------------------------------------------------------------------

  /** GET /market/stocks: no keyword arguments at all. */
  function MarketStocksGet(): (r: Request)
    ensures Targets(r, GET, "/market/stocks", MarketInstrumentListResponse)
    ensures r.kwargs == map[]
  {
    Request(GET, "/market/stocks", MarketInstrumentListResponse, map[])
  }

  /** GET /market/bonds: no keyword arguments at all. */
  function MarketBondsGet(): (r: Request)
    ensures Targets(r, GET, "/market/bonds", MarketInstrumentListResponse)
    ensures r.kwargs == map[]
  {
    Request(GET, "/market/bonds", MarketInstrumentListResponse, map[])
  }

  /** GET /market/etfs: no keyword arguments at all. */
  function MarketEtfsGet(): (r: Request)
    ensures Targets(r, GET, "/market/etfs", MarketInstrumentListResponse)
    ensures r.kwargs == map[]
  {
    Request(GET, "/market/etfs", MarketInstrumentListResponse, map[])
  }

  /** GET /market/currencies: no keyword arguments at all. */
  function MarketCurrenciesGet(): (r: Request)
    ensures Targets(r, GET, "/market/currencies", MarketInstrumentListResponse)
    ensures r.kwargs == map[]
  {
    Request(GET, "/market/currencies", MarketInstrumentListResponse, map[])
  }

  /** GET /market/orderbook: params are exactly `figi` and `depth`. */
  function MarketOrderbookGet(figi: string, depth: int): (r: Request)
    ensures Targets(r, GET, "/market/orderbook", OrderbookResponse)
    ensures r.kwargs.Keys == {"params"}
    ensures ParamsOf(r) == Some(map["figi" := PStr(figi), "depth" := PInt(depth)])
  {
    Request(GET, "/market/orderbook", OrderbookResponse,
      map["params" := ParamsArg(map["figi" := PStr(figi), "depth" := PInt(depth)])])
  }

  /** GET /market/candles: `figi`, `from`, `to` (rendered by `Isoformat`) and the interval's wire value. */
  function MarketCandlesGet(figi: string, from: DateTimeOrStr, to: DateTimeOrStr, interval: CandleResolution): (r: Request)
    ensures Targets(r, GET, "/market/candles", CandlesResponse)
    ensures r.kwargs.Keys == {"params"}
    ensures ParamsOf(r).Some? && ParamsOf(r).value.Keys == {"figi", "from", "to", "interval"}
    ensures ParamsOf(r).value["figi"] == PStr(figi)
    ensures ParamsOf(r).value["from"] == PStr(Isoformat(from))
    ensures ParamsOf(r).value["to"] == PStr(Isoformat(to))
    ensures ParamsOf(r).value["interval"] == PStr(ResolutionValue(interval))
  {
    var params := map[
      "figi" := PStr(figi),
      "from" := PStr(Isoformat(from)),
      "to" := PStr(Isoformat(to)),
      "interval" := PStr(ResolutionValue(interval))];
    Request(GET, "/market/candles", CandlesResponse, map["params" := ParamsArg(params)])
  }

  /** GET /market/search/by-figi: params are exactly `figi`. */
  function MarketSearchByFigiGet(figi: string): (r: Request)
    ensures Targets(r, GET, "/market/search/by-figi", SearchMarketInstrumentResponse)
    ensures r.kwargs.Keys == {"params"}
    ensures ParamsOf(r) == Some(map["figi" := PStr(figi)])
  {
    Request(GET, "/market/search/by-figi", SearchMarketInstrumentResponse,
      map["params" := ParamsArg(map["figi" := PStr(figi)])])
  }

  /** GET /market/search/by-ticker: params are exactly `ticker`. */
  function MarketSearchByTickerGet(ticker: string): (r: Request)
    ensures Targets(r, GET, "/market/search/by-ticker", MarketInstrumentListResponse)
    ensures r.kwargs.Keys == {"params"}
    ensures ParamsOf(r) == Some(map["ticker" := PStr(ticker)])
  {
    Request(GET, "/market/search/by-ticker", MarketInstrumentListResponse,
      map["params" := ParamsArg(map["ticker" := PStr(ticker)])])
  }

  // ---------------------------------------------------------------------------
  // Operations and user
  // ---------------------------------------------------------------------------

  /** GET /operations: `from` and `to` always, `figi` and `brokerAccountId` only when truthy. */
  function OperationsGet(from: DateTimeOrStr, to: DateTimeOrStr, figi: Option<string>, brokerAccountId: Option<string>): (r: Request)
    ensures Targets(r, GET, "/operations", OperationsResponse)
    ensures r.kwargs.Keys == {"params"}
    ensures ParamsOf(r).Some? && ParamsOf(r).value.Keys <= {"from", "to", "figi", "brokerAccountId"}
    ensures "from" in ParamsOf(r).value && ParamsOf(r).value["from"] == PStr(Isoformat(from))
    ensures "to" in ParamsOf(r).value && ParamsOf(r).value["to"] == PStr(Isoformat(to))
    ensures "figi" in ParamsOf(r).value <==> Truthy(figi)
    ensures "figi" in ParamsOf(r).value ==> ParamsOf(r).value["figi"] == PStr(figi.value)
    ensures AccountScoped(ParamsOf(r).value, brokerAccountId)
  {
    var dates := map["from" := PStr(Isoformat(from)), "to" := PStr(Isoformat(to))];
    var withFigi := if Truthy(figi) then dates["figi" := PStr(figi.value)] else dates;
    var params := if Truthy(brokerAccountId) then withFigi["brokerAccountId" := PStr(brokerAccountId.value)] else withFigi;
    Request(GET, "/operations", OperationsResponse, map["params" := ParamsArg(params)])
  }

  /** GET /user/accounts: no keyword arguments at all. */
  function AccountsGet(): (r: Request)
    ensures Targets(r, GET, "/user/accounts", UserAccountsResponse)
    ensures r.kwargs == map[]
  {
    Request(GET, "/user/accounts", UserAccountsResponse, map[])
  }
}

=== FILE: clients.dfy ===
/** The REST clients (`AsyncClient`, `SyncClient`): construction, the shared
    `_request` (URL, headers, status dispatch) and the delegation of every public
    method to its request builder. The HTTP exchange itself is a parameter: the
    response the transport returned. */
module Clients {
  import opened Wrappers
  import opened Exceptions
  import opened Typedefs
  import opened Schemas
  import opened Utils
  import opened Apis
  import opened Constants

  /** The two client classes differ only in the transport and in `raise_for_status`. */
  datatype Flavour = AsyncFlavour | SyncFlavour

  datatype Client = Client(flavour: Flavour, baseUrl: string, token: string)

  /** The constructor: an empty token raises; otherwise the base URL follows `useSandbox`. */
  function NewClient(flavour: Flavour, token: string, useSandbox: bool): (r: Outcome<Client, Exception>)
    ensures r.Raised? <==> token == ""
    ensures r.Raised? ==> r.error == ValueError(EMPTY_TOKEN_MESSAGE)
    ensures r.Ok? ==> r.value.flavour == flavour && r.value.token == token
    ensures r.Ok? ==> (r.value.baseUrl == SANDBOX <==> useSandbox)
    ensures r.Ok? ==> (r.value.baseUrl == PRODUCTION <==> !useSandbox)
  {
    match ValidateToken(token)
    case Raised(e) => Raised(e)
    case Ok(_) => Ok(Client(flavour, GetBaseUrl(useSandbox), token))
  }

  // ---------------------------------------------------------------------------
  // _request
  // ---------------------------------------------------------------------------

  /** What `_request` hands the HTTP session: method, absolute URL, keyword arguments. */
  datatype HttpCall = HttpCall(verb: HttpMethod, url: string, kwargs: Kwargs)

  /** The response the transport returned. */
  datatype HttpResponse = HttpResponse(status: int, text: string)

  /** A body parsed into its response model; the parse itself is pydantic's. */
  datatype Parsed = Parsed(model: ResponseModel, raw: string)

  const HTTP_OK: int := 200
  const HTTP_BAD_REQUEST: int := 400
  const HTTP_TOO_MANY_REQUESTS: int := 429

  /** The call `_request` issues: URL is base URL plus path, default headers are
      added, and the async client always disables `raise_for_status`. */
  function PrepareCall(c: Client, r: Request): (call: HttpCall)
    requires HeadersWellTyped(r.kwargs)
    ensures call.verb == r.verb
    ensures call.url == c.baseUrl + r.path
    ensures HeadersWellTyped(call.kwargs)
    ensures ExistingHeaders(call.kwargs) == ExistingHeaders(SetDefaultHeaders(r.kwargs, c.token))
    ensures forall k :: k in r.kwargs && k != "headers" && k != "raise_for_status" ==>
      k in call.kwargs && call.kwargs[k] == r.kwargs[k]
    ensures c.flavour == AsyncFlavour ==>
      && call.kwargs.Keys == r.kwargs.Keys + {"headers", "raise_for_status"}
      && call.kwargs["raise_for_status"] == FlagArg(false)
    ensures c.flavour == SyncFlavour ==> call.kwargs.Keys == r.kwargs.Keys + {"headers"}
  {
    var withHeaders := SetDefaultHeaders(r.kwargs, c.token);
    var kwargs := if c.flavour == AsyncFlavour then withHeaders["raise_for_status" := FlagArg(false)] else withHeaders;
    HttpCall(r.verb, c.baseUrl + r.path, kwargs)
  }

  /** Status dispatch: 200 parses the body, 400 and 429 raise their own errors,
      anything else raises `UnexpectedError` with the status and text. */
  function Dispatch(model: ResponseModel, resp: HttpResponse): (r: Outcome<Parsed, Exception>)
    ensures r.Ok? <==> resp.status == HTTP_OK
    ensures r.Ok? ==> r.value == Parsed(model, resp.text)
    ensures resp.status == HTTP_BAD_REQUEST ==> r == Raised(BadRequestError(resp.text))
    ensures resp.status == HTTP_TOO_MANY_REQUESTS ==> r == Raised(TooManyRequestsError)
    ensures resp.status !in {HTTP_OK, HTTP_BAD_REQUEST, HTTP_TOO_MANY_REQUESTS} ==>
      r == Raised(UnexpectedError(resp.status, resp.text))
  {
    if resp.status == HTTP_OK then Ok(Parsed(model, resp.text))
    else if resp.status == HTTP_BAD_REQUEST then Raised(BadRequestError(resp.text))
    else if resp.status == HTTP_TOO_MANY_REQUESTS then Raised(TooManyRequestsError)
    else Raised(UnexpectedError(resp.status, resp.text))
  }

  /** One `_request`: the call made and what came of the transport's response. */
  datatype Exchange = Exchange(call: HttpCall, result: Outcome<Parsed, Exception>)

  function Perform(c: Client, r: Request, resp: HttpResponse): (x: Exchange)
    requires HeadersWellTyped(r.kwargs)
    ensures x.call == PrepareCall(c, r)
    ensures x.call.verb == r.verb && x.call.url == c.baseUrl + r.path
    ensures HeadersWellTyped(x.call.kwargs)
    ensures "accept" in ExistingHeaders(x.call.kwargs) && "Authorization" in ExistingHeaders(x.call.kwargs)
    ensures x.result.Ok? <==> resp.status == HTTP_OK
    ensures x.result.Ok? ==> x.result.value == Parsed(r.responseModel, resp.text)
    ensures resp.status == HTTP_BAD_REQUEST ==> x.result == Raised(BadRequestError(resp.text))
    ensures resp.status == HTTP_TOO_MANY_REQUESTS ==> x.result == Raised(TooManyRequestsError)
    ensures resp.status !in {HTTP_OK, HTTP_BAD_REQUEST, HTTP_TOO_MANY_REQUESTS} ==>
      x.result == Raised(UnexpectedError(resp.status, resp.text))
  {
    Exchange(PrepareCall(c, r), Dispatch(r.responseModel, resp))
  }

  /** The async client's call for `_request('GET', '/path', Empty, params={'k': 1})`
      against production. */
  lemma AsyncRequestExample(token: string)
    requires token != ""
    ensures NewClient(AsyncFlavour, token, false).Ok?
    ensures PrepareCall(NewClient(AsyncFlavour, token, false).value,
                        Request(GET, "/path", Empty, map["params" := ParamsArg(map["k" := PInt(1)])])) ==
      HttpCall(GET, PRODUCTION + "/path", map[
        "headers" := HeadersArg(map["Authorization" := "Bearer " + token, "accept" := ACCEPT_JSON]),
        "params" := ParamsArg(map["k" := PInt(1)]),
        "raise_for_status" := FlagArg(false)])
  {
    var c := NewClient(AsyncFlavour, token, false).value;
    var r := Request(GET, "/path", Empty, map["params" := ParamsArg(map["k" := PInt(1)])]);
    var call := PrepareCall(c, r);
    var expected := map[
        "headers" := HeadersArg(map["Authorization" := "Bearer " + token, "accept" := ACCEPT_JSON]),
        "params" := ParamsArg(map["k" := PInt(1)]),
        "raise_for_status" := FlagArg(false)];
    assert ExistingHeaders(call.kwargs) == map["Authorization" := "Bearer " + token, "accept" := ACCEPT_JSON];
    assert call.kwargs.Keys == expected.Keys;
  }

  // ---------------------------------------------------------------------------
  // Public methods and their delegation to the builders
  // ---------------------------------------------------------------------------

  /** A public client method together with its arguments. */
  datatype Operation =
    | RegisterSandboxAccount(registerBody: SandboxRegisterRequest)
    | SetSandboxCurrenciesBalance(currencyBody: SandboxSetCurrencyBalanceRequest, brokerAccountId: Option<string>)
    | SetSandboxPositionsBalance(positionBody: SandboxSetPositionBalanceRequest, brokerAccountId: Option<string>)
    | RemoveSandboxAccount(brokerAccountId: Option<string>)
    | ClearSandboxAccount(brokerAccountId: Option<string>)
    | GetOrders(brokerAccountId: Option<string>)
    | PostOrdersLimitOrder(figi: string, limitBody: LimitOrderRequest, brokerAccountId: Option<string>)
    | PostOrdersMarketOrder(figi: string, marketBody: MarketOrderRequest, brokerAccountId: Option<string>)
    | PostOrdersCancel(orderId: string, brokerAccountId: Option<string>)
    | GetPortfolio(brokerAccountId: Option<string>)
    | GetPortfolioCurrencies(brokerAccountId: Option<string>)
    | GetMarketStocks
    | GetMarketBonds
    | GetMarketEtfs
    | GetMarketCurrencies
    | GetMarketOrderbook(figi: string, depth: int)
    | GetMarketCandles(figi: string, from: DateTimeOrStr, to: DateTimeOrStr, interval: CandleResolution)
    | GetMarketSearchByFigi(figi: string)
    | GetMarketSearchByTicker(ticker: string)
    | GetOperations(from: DateTimeOrStr, to: DateTimeOrStr, figiFilter: Option<string>, brokerAccountId: Option<string>)
    | GetAccounts

  /** Method, path and response model of an endpoint. */
  datatype Endpoint = Endpoint(verb: HttpMethod, path: string, model: ResponseModel)

  /** The 21 endpoints of the REST API, one per public method. */
  datatype Route =
    | SandboxRegisterRoute | SandboxCurrenciesBalanceRoute | SandboxPositionsBalanceRoute
    | SandboxRemoveRoute | SandboxClearRoute
    | OrdersRoute | OrdersLimitOrderRoute | OrdersMarketOrderRoute | OrdersCancelRoute
    | PortfolioRoute | PortfolioCurrenciesRoute
    | MarketStocksRoute | MarketBondsRoute | MarketEtfsRoute | MarketCurrenciesRoute
    | MarketOrderbookRoute | MarketCandlesRoute | MarketSearchByFigiRoute | MarketSearchByTickerRoute
    | OperationsRoute | UserAccountsRoute

  /** The endpoint each public method documents, as a table of its own. */
  function EndpointAt(rt: Route): Endpoint {
    match rt
    case SandboxRegisterRoute => Endpoint(POST, "/sandbox/register", SandboxRegisterResponse)
    case SandboxCurrenciesBalanceRoute => Endpoint(POST, "/sandbox/currencies/balance", Empty)
    case SandboxPositionsBalanceRoute => Endpoint(POST, "/sandbox/positions/balance", Empty)
    case SandboxRemoveRoute => Endpoint(POST, "/sandbox/remove", Empty)
    case SandboxClearRoute => Endpoint(POST, "/sandbox/clear", Empty)
    case OrdersRoute => Endpoint(GET, "/orders", OrdersResponse)
    case OrdersLimitOrderRoute => Endpoint(POST, "/orders/limit-order", LimitOrderResponse)
    case OrdersMarketOrderRoute => Endpoint(POST, "/orders/market-order", MarketOrderResponse)
    case OrdersCancelRoute => Endpoint(POST, "/orders/cancel", Empty)
    case PortfolioRoute => Endpoint(GET, "/portfolio", PortfolioResponse)
    case PortfolioCurrenciesRoute => Endpoint(GET, "/portfolio/currencies", PortfolioCurrenciesResponse)
    case MarketStocksRoute => Endpoint(GET, "/market/stocks", MarketInstrumentListResponse)
    case MarketBondsRoute => Endpoint(GET, "/market/bonds", MarketInstrumentListResponse)
    case MarketEtfsRoute => Endpoint(GET, "/market/etfs", MarketInstrumentListResponse)
    case MarketCurrenciesRoute => Endpoint(GET, "/market/currencies", MarketInstrumentListResponse)
    case MarketOrderbookRoute => Endpoint(GET, "/market/orderbook", OrderbookResponse)
    case MarketCandlesRoute => Endpoint(GET, "/market/candles", CandlesResponse)
    case MarketSearchByFigiRoute => Endpoint(GET, "/market/search/by-figi", SearchMarketInstrumentResponse)
    case MarketSearchByTickerRoute => Endpoint(GET, "/market/search/by-ticker", MarketInstrumentListResponse)
    case OperationsRoute => Endpoint(GET, "/operations", OperationsResponse)
    case UserAccountsRoute => Endpoint(GET, "/user/accounts", UserAccountsResponse)
  }

  /** The endpoint a public method calls. */
  function RouteOf(op: Operation): Route {
    match op
    case RegisterSandboxAccount(_) => SandboxRegisterRoute
    case SetSandboxCurrenciesBalance(_, _) => SandboxCurrenciesBalanceRoute
    case SetSandboxPositionsBalance(_, _) => SandboxPositionsBalanceRoute
    case RemoveSandboxAccount(_) => SandboxRemoveRoute
    case ClearSandboxAccount(_) => SandboxClearRoute
    case GetOrders(_) => OrdersRoute
    case PostOrdersLimitOrder(_, _, _) => OrdersLimitOrderRoute
    case PostOrdersMarketOrder(_, _, _) => OrdersMarketOrderRoute
    case PostOrdersCancel(_, _) => OrdersCancelRoute
    case GetPortfolio(_) => PortfolioRoute
    case GetPortfolioCurrencies(_) => PortfolioCurrenciesRoute
    case GetMarketStocks => MarketStocksRoute
    case GetMarketBonds => MarketBondsRoute
    case GetMarketEtfs => MarketEtfsRoute
    case GetMarketCurrencies => MarketCurrenciesRoute
    case GetMarketOrderbook(_, _) => MarketOrderbookRoute
    case GetMarketCandles(_, _, _, _) => MarketCandlesRoute
    case GetMarketSearchByFigi(_) => MarketSearchByFigiRoute
    case GetMarketSearchByTicker(_) => MarketSearchByTickerRoute
    case GetOperations(_, _, _, _) => OperationsRoute
    case GetAccounts => UserAccountsRoute
  }

  function EndpointOf(op: Operation): Endpoint {
    EndpointAt(RouteOf(op))
  }

  /** The endpoint a path names, if any: the table read backwards. Paths are
      told apart by their length first and by their text within one length;
      `RouteAtEndpoint` shows that this reads every row back. */
  function RouteAt(path: string): Option<Route> {
    var n := |path|;
    if n == 7 then
      if path == "/orders" then Some(OrdersRoute)
      else None
    else if n == 10 then
      if path == "/portfolio" then Some(PortfolioRoute)
      else None
    else if n == 11 then
      if path == "/operations" then Some(OperationsRoute)
      else None
    else if n == 12 then
      if path == "/market/etfs" then Some(MarketEtfsRoute)
      else None
    else if n == 13 then
      if path == "/market/bonds" then Some(MarketBondsRoute)
      else None
    else if n == 14 then
      if path == "/sandbox/clear" then Some(SandboxClearRoute)
      else if path == "/orders/cancel" then Some(OrdersCancelRoute)
      else if path == "/market/stocks" then Some(MarketStocksRoute)
      else if path == "/user/accounts" then Some(UserAccountsRoute)
      else None
    else if n == 15 then
      if path == "/sandbox/remove" then Some(SandboxRemoveRoute)
      else if path == "/market/candles" then Some(MarketCandlesRoute)
      else None
    else if n == 17 then
      if path == "/sandbox/register" then Some(SandboxRegisterRoute)
      else if path == "/market/orderbook" then Some(MarketOrderbookRoute)
      else None
    else if n == 18 then
      if path == "/market/currencies" then Some(MarketCurrenciesRoute)
      else None
    else if n == 19 then
      if path == "/orders/limit-order" then Some(OrdersLimitOrderRoute)
      else None
    else if n == 20 then
      if path == "/orders/market-order" then Some(OrdersMarketOrderRoute)
      else None
    else if n == 21 then
      if path == "/portfolio/currencies" then Some(PortfolioCurrenciesRoute)
      else None
    else if n == 22 then
      if path == "/market/search/by-figi" then Some(MarketSearchByFigiRoute)
      else None
    else if n == 24 then
      if path == "/market/search/by-ticker" then Some(MarketSearchByTickerRoute)
      else None
    else if n == 26 then
      if path == "/sandbox/positions/balance" then Some(SandboxPositionsBalanceRoute)
      else None
    else if n == 27 then
      if path == "/sandbox/currencies/balance" then Some(SandboxCurrenciesBalanceRoute)
      else None
    else None
  }

  /** The methods that take no arguments and so pass no keyword arguments. */
  predicate IsListing(op: Operation) {
    op.GetMarketStocks? || op.GetMarketBonds? || op.GetMarketEtfs? || op.GetMarketCurrencies? || op.GetAccounts?
  }

  /** The methods that send a request body. */
  predicate HasBody(op: Operation) {
    op.RegisterSandboxAccount? || op.SetSandboxCurrenciesBalance? || op.SetSandboxPositionsBalance?
    || op.PostOrdersLimitOrder? || op.PostOrdersMarketOrder?
  }

  /** Each public method calls its builder with its own arguments unchanged.
      The request goes to the documented endpoint; `params` is passed by every
      method but the listings and account registration, `data` exactly by the
      methods with a body, and no builder sets headers. */
  function Build(op: Operation): (r: Request)
    ensures r.kwargs.Keys <= {"params", "data"}
  {
    match op
    case RegisterSandboxAccount(body) => SandboxRegisterPost(body)
    case SetSandboxCurrenciesBalance(body, account) => SandboxCurrenciesBalancePost(body, account)
    case SetSandboxPositionsBalance(body, account) => SandboxPositionsBalancePost(body, account)
    case RemoveSandboxAccount(account) => SandboxRemovePost(account)
    case ClearSandboxAccount(account) => SandboxClearPost(account)
    case GetOrders(account) => OrdersGet(account)
    case PostOrdersLimitOrder(figi, body, account) => OrdersLimitOrderPost(figi, body, account)
    case PostOrdersMarketOrder(figi, body, account) => OrdersMarketOrderPost(figi, body, account)
    case PostOrdersCancel(orderId, account) => OrdersCancelPost(orderId, account)
    case GetPortfolio(account) => PortfolioGet(account)
    case GetPortfolioCurrencies(account) => PortfolioCurrenciesGet(account)
    case GetMarketStocks => MarketStocksGet()
    case GetMarketBonds => MarketBondsGet()
    case GetMarketEtfs => MarketEtfsGet()
    case GetMarketCurrencies => MarketCurrenciesGet()
    case GetMarketOrderbook(figi, depth) => MarketOrderbookGet(figi, depth)
    case GetMarketCandles(figi, from, to, interval) => MarketCandlesGet(figi, from, to, interval)
    case GetMarketSearchByFigi(figi) => MarketSearchByFigiGet(figi)
    case GetMarketSearchByTicker(ticker) => MarketSearchByTickerGet(ticker)
    case GetOperations(from, to, figi, account) => OperationsGet(from, to, figi, account)
    case GetAccounts => AccountsGet()
  }

  /** Every public method issues its request to the endpoint the table documents. */
  lemma BuildTargetsEndpoint(op: Operation)
    ensures Targets(Build(op), EndpointOf(op).verb, EndpointOf(op).path, EndpointOf(op).model)
  {
    BuildShape(op);
  }

  /** `params` is passed by every method but the listings and account
      registration; `data` exactly by the methods with a body. */
  lemma BuildKeywordArguments(op: Operation)
    ensures "params" in Build(op).kwargs <==> !IsListing(op) && !op.RegisterSandboxAccount?
    ensures "data" in Build(op).kwargs <==> HasBody(op)
  {
    BuildShape(op);
  }

  /** A partition of the public methods into small groups, so that each proof
      about all of them is a handful of small proofs. */
  function ProofGroup(op: Operation): (g: nat)
    ensures 1 <= g <= 8
  {
    match op
    case RegisterSandboxAccount(_) => 1
    case SetSandboxCurrenciesBalance(_, _) => 1
    case SetSandboxPositionsBalance(_, _) => 1
    case RemoveSandboxAccount(_) => 2
    case ClearSandboxAccount(_) => 2
    case GetOrders(_) => 2
    case PostOrdersLimitOrder(_, _, _) => 3
    case PostOrdersMarketOrder(_, _, _) => 3
    case PostOrdersCancel(_, _) => 3
    case GetPortfolio(_) => 4
    case GetPortfolioCurrencies(_) => 4
    case GetMarketStocks => 5
    case GetMarketBonds => 5
    case GetMarketEtfs => 5
    case GetMarketCurrencies => 5
    case GetAccounts => 5
    case GetMarketOrderbook(_, _) => 6
    case GetMarketSearchByFigi(_) => 6
    case GetMarketSearchByTicker(_) => 6
    case GetMarketCandles(_, _, _, _) => 7
    case GetOperations(_, _, _, _) => 8
  }

  lemma BuildShape(op: Operation)
    ensures Targets(Build(op), EndpointOf(op).verb, EndpointOf(op).path, EndpointOf(op).model)
    ensures "params" in Build(op).kwargs <==> !IsListing(op) && !op.RegisterSandboxAccount?
    ensures "data" in Build(op).kwargs <==> HasBody(op)
  {
    var g := ProofGroup(op);
    if g == 1 {
      BuildShapeSetup(op);
    } else if g == 2 {
      BuildShapeAccountOnly(op);
    } else if g == 3 {
      BuildShapeOrders(op);
    } else if g == 4 {
      BuildShapePortfolio(op);
    } else if g == 5 {
      BuildShapeListing(op);
    } else if g == 6 {
      BuildShapeLookup(op);
    } else if g == 7 {
      BuildShapeCandles(op);
    } else {
      BuildShapeOperations(op);
    }
  }

  lemma BuildShapeSetup(op: Operation)
    requires ProofGroup(op) == 1
    ensures Targets(Build(op), EndpointOf(op).verb, EndpointOf(op).path, EndpointOf(op).model)
    ensures "params" in Build(op).kwargs <==> !IsListing(op) && !op.RegisterSandboxAccount?
    ensures "data" in Build(op).kwargs <==> HasBody(op)
  {
  }

  lemma BuildShapeAccountOnly(op: Operation)
    requires ProofGroup(op) == 2
    ensures Targets(Build(op), EndpointOf(op).verb, EndpointOf(op).path, EndpointOf(op).model)
    ensures "params" in Build(op).kwargs <==> !IsListing(op) && !op.RegisterSandboxAccount?
    ensures "data" in Build(op).kwargs <==> HasBody(op)
  {
  }

  lemma BuildShapeOrders(op: Operation)
    requires ProofGroup(op) == 3
    ensures Targets(Build(op), EndpointOf(op).verb, EndpointOf(op).path, EndpointOf(op).model)
    ensures "params" in Build(op).kwargs <==> !IsListing(op) && !op.RegisterSandboxAccount?
    ensures "data" in Build(op).kwargs <==> HasBody(op)
  {
  }

  lemma BuildShapePortfolio(op: Operation)
    requires ProofGroup(op) == 4
    ensures Targets(Build(op), EndpointOf(op).verb, EndpointOf(op).path, EndpointOf(op).model)
    ensures "params" in Build(op).kwargs <==> !IsListing(op) && !op.RegisterSandboxAccount?
    ensures "data" in Build(op).kwargs <==> HasBody(op)
  {
  }

  lemma BuildShapeListing(op: Operation)
    requires ProofGroup(op) == 5
    ensures Targets(Build(op), EndpointOf(op).verb, EndpointOf(op).path, EndpointOf(op).model)
    ensures "params" in Build(op).kwargs <==> !IsListing(op) && !op.RegisterSandboxAccount?
    ensures "data" in Build(op).kwargs <==> HasBody(op)
  {
  }

  lemma BuildShapeLookup(op: Operation)
    requires ProofGroup(op) == 6
    ensures Targets(Build(op), EndpointOf(op).verb, EndpointOf(op).path, EndpointOf(op).model)
    ensures "params" in Build(op).kwargs <==> !IsListing(op) && !op.RegisterSandboxAccount?
    ensures "data" in Build(op).kwargs <==> HasBody(op)
  {
  }

  lemma BuildShapeCandles(op: Operation)
    requires ProofGroup(op) == 7
    ensures Targets(Build(op), EndpointOf(op).verb, EndpointOf(op).path, EndpointOf(op).model)
    ensures "params" in Build(op).kwargs <==> !IsListing(op) && !op.RegisterSandboxAccount?
    ensures "data" in Build(op).kwargs <==> HasBody(op)
  {
  }

  lemma BuildShapeOperations(op: Operation)
    requires ProofGroup(op) == 8
    ensures Targets(Build(op), EndpointOf(op).verb, EndpointOf(op).path, EndpointOf(op).model)
    ensures "params" in Build(op).kwargs <==> !IsListing(op) && !op.RegisterSandboxAccount?
    ensures "data" in Build(op).kwargs <==> HasBody(op)
  {
  }

  /** A public method call on a client: its builder's request, sent through `_request`. */
  function Call(c: Client, op: Operation, resp: HttpResponse): (x: Exchange)
    ensures x.call.url == c.baseUrl + EndpointOf(op).path
    ensures x.call.verb == EndpointOf(op).verb
    ensures HeadersWellTyped(x.call.kwargs)
    ensures ExistingHeaders(x.call.kwargs) == map["accept" := ACCEPT_JSON, "Authorization" := BearerAuthorization(c.token)]
    ensures x.result.Ok? <==> resp.status == HTTP_OK
    ensures x.result.Ok? ==> x.result.value.model == EndpointOf(op).model
  {
    var r := Build(op);
    BuildTargetsEndpoint(op);
    var x := Perform(c, r, resp);
    assert ExistingHeaders(x.call.kwargs) == map["accept" := ACCEPT_JSON, "Authorization" := BearerAuthorization(c.token)];
    x
  }

  // ---------------------------------------------------------------------------
  // What a request carries: decoding it back to the call that made it
  // ---------------------------------------------------------------------------

  /** The call with the information the builders drop removed: a falsy optional
      string becomes `None`, a datetime becomes its rendered string. */
  function Normalize(op: Operation): Operation {
    match op
    case SetSandboxCurrenciesBalance(body, account) => SetSandboxCurrenciesBalance(body, Falsy(account))
    case SetSandboxPositionsBalance(body, account) => SetSandboxPositionsBalance(body, Falsy(account))
    case RemoveSandboxAccount(account) => RemoveSandboxAccount(Falsy(account))
    case ClearSandboxAccount(account) => ClearSandboxAccount(Falsy(account))
    case GetOrders(account) => GetOrders(Falsy(account))
    case PostOrdersLimitOrder(figi, body, account) => PostOrdersLimitOrder(figi, body, Falsy(account))
    case PostOrdersMarketOrder(figi, body, account) => PostOrdersMarketOrder(figi, body, Falsy(account))
    case PostOrdersCancel(orderId, account) => PostOrdersCancel(orderId, Falsy(account))
    case GetPortfolio(account) => GetPortfolio(Falsy(account))
    case GetPortfolioCurrencies(account) => GetPortfolioCurrencies(Falsy(account))
    case GetMarketCandles(figi, from, to, interval) =>
      GetMarketCandles(figi, Str(Isoformat(from)), Str(Isoformat(to)), interval)
    case GetOperations(from, to, figi, account) =>
      GetOperations(Str(Isoformat(from)), Str(Isoformat(to)), Falsy(figi), Falsy(account))
    case _ => op
  }

  /** An optional string with the falsy values collapsed to `None`. */
  function Falsy(s: Option<string>): Option<string> {
    if Truthy(s) then s else None
  }

  /** The string value of a parameter, if present. */
  function StrParam(p: Params, key: string): Option<string> {
    if key in p && p[key].PStr? then Some(p[key].s) else None
  }

  function ParamsOrEmpty(r: Request): Params {
    match ParamsOf(r)
    case Some(p) => p
    case None => map[]
  }

  /** Reads a request back into the public method call that produced it. */
  function Decode(r: Request): Option<Operation> {
    match RouteAt(r.path)
    case None => None
    case Some(rt) => DecodeAt(rt, r)
  }

  /** Reads the arguments of the method behind `rt` out of the request. */
  function DecodeAt(rt: Route, r: Request): Option<Operation> {
    var p := ParamsOrEmpty(r);
    var account := StrParam(p, "brokerAccountId");
    match rt
    case SandboxRegisterRoute =>
      (match DataOf(r) case Some(RegisterBody(b)) => Some(RegisterSandboxAccount(b)) case _ => None)
    case SandboxCurrenciesBalanceRoute =>
      (match DataOf(r) case Some(CurrencyBalanceBody(b)) => Some(SetSandboxCurrenciesBalance(b, account)) case _ => None)
    case SandboxPositionsBalanceRoute =>
      (match DataOf(r) case Some(PositionBalanceBody(b)) => Some(SetSandboxPositionsBalance(b, account)) case _ => None)
    case SandboxRemoveRoute => Some(RemoveSandboxAccount(account))
    case SandboxClearRoute => Some(ClearSandboxAccount(account))
    case OrdersRoute => Some(GetOrders(account))
    case OrdersLimitOrderRoute =>
      (match (StrParam(p, "figi"), DataOf(r))
       case (Some(figi), Some(LimitOrderBody(b))) => Some(PostOrdersLimitOrder(figi, b, account))
       case _ => None)
    case OrdersMarketOrderRoute =>
      (match (StrParam(p, "figi"), DataOf(r))
       case (Some(figi), Some(MarketOrderBody(b))) => Some(PostOrdersMarketOrder(figi, b, account))
       case _ => None)
    case OrdersCancelRoute =>
      (match StrParam(p, "orderId") case Some(id) => Some(PostOrdersCancel(id, account)) case None => None)
    case PortfolioRoute => Some(GetPortfolio(account))
    case PortfolioCurrenciesRoute => Some(GetPortfolioCurrencies(account))
    case MarketStocksRoute => Some(GetMarketStocks)
    case MarketBondsRoute => Some(GetMarketBonds)
    case MarketEtfsRoute => Some(GetMarketEtfs)
    case MarketCurrenciesRoute => Some(GetMarketCurrencies)
    case MarketOrderbookRoute =>
      (if "depth" in p && p["depth"].PInt? && StrParam(p, "figi").Some?
       then Some(GetMarketOrderbook(StrParam(p, "figi").value, p["depth"].i)) else None)
    case MarketCandlesRoute =>
      (match (StrParam(p, "figi"), StrParam(p, "from"), StrParam(p, "to"), StrParam(p, "interval"))
       case (Some(figi), Some(from), Some(to), Some(iv)) =>
         (match ParseResolution(iv)
          case Some(interval) => Some(GetMarketCandles(figi, Str(from), Str(to), interval))
          case None => None)
       case _ => None)
    case MarketSearchByFigiRoute =>
      (match StrParam(p, "figi") case Some(figi) => Some(GetMarketSearchByFigi(figi)) case None => None)
    case MarketSearchByTickerRoute =>
      (match StrParam(p, "ticker") case Some(t) => Some(GetMarketSearchByTicker(t)) case None => None)
    case OperationsRoute =>
      (match (StrParam(p, "from"), StrParam(p, "to"))
       case (Some(from), Some(to)) => Some(GetOperations(Str(from), Str(to), StrParam(p, "figi"), account))
       case _ => None)
    case UserAccountsRoute => Some(GetAccounts)
  }

  /** No two endpoints share a path, so the path alone names the endpoint. */
  lemma RouteAtEndpoint(rt: Route)
    ensures RouteAt(EndpointAt(rt).path) == Some(rt)
  {
    if rt.SandboxRegisterRoute? || rt.SandboxCurrenciesBalanceRoute? || rt.SandboxPositionsBalanceRoute? || rt.SandboxRemoveRoute? || rt.SandboxClearRoute? || rt.OrdersRoute? {
      RouteAtEndpointPart1(rt);
    } else if rt.OrdersLimitOrderRoute? || rt.OrdersMarketOrderRoute? || rt.OrdersCancelRoute? || rt.PortfolioRoute? || rt.PortfolioCurrenciesRoute? {
      RouteAtEndpointPart2(rt);
    } else if rt.MarketStocksRoute? || rt.MarketBondsRoute? || rt.MarketEtfsRoute? || rt.MarketCurrenciesRoute? || rt.MarketOrderbookRoute? {
      RouteAtEndpointPart3(rt);
    } else {
      RouteAtEndpointPart4(rt);
    }
  }

  lemma RouteAtEndpointPart1(rt: Route)
    requires rt.SandboxRegisterRoute? || rt.SandboxCurrenciesBalanceRoute? || rt.SandboxPositionsBalanceRoute? || rt.SandboxRemoveRoute? || rt.SandboxClearRoute? || rt.OrdersRoute?
    ensures RouteAt(EndpointAt(rt).path) == Some(rt)
  {
  }

  lemma RouteAtEndpointPart2(rt: Route)
    requires rt.OrdersLimitOrderRoute? || rt.OrdersMarketOrderRoute? || rt.OrdersCancelRoute? || rt.PortfolioRoute? || rt.PortfolioCurrenciesRoute?
    ensures RouteAt(EndpointAt(rt).path) == Some(rt)
  {
  }

  lemma RouteAtEndpointPart3(rt: Route)
    requires rt.MarketStocksRoute? || rt.MarketBondsRoute? || rt.MarketEtfsRoute? || rt.MarketCurrenciesRoute? || rt.MarketOrderbookRoute?
    ensures RouteAt(EndpointAt(rt).path) == Some(rt)
  {
  }

  lemma RouteAtEndpointPart4(rt: Route)
    requires rt.MarketCandlesRoute? || rt.MarketSearchByFigiRoute? || rt.MarketSearchByTickerRoute? || rt.OperationsRoute? || rt.UserAccountsRoute?
    ensures RouteAt(EndpointAt(rt).path) == Some(rt)
  {
  }

  /** A built request determines the call that built it, up to what the builders
      drop: falsy optional strings and the difference between a datetime and its
      rendering. */
  lemma DecodeBuild(op: Operation)
    ensures Decode(Build(op)) == Some(Normalize(op))
  {
    BuildTargetsEndpoint(op);
    RouteAtEndpoint(RouteOf(op));
    var g := ProofGroup(op);
    if g == 1 {
      DecodeBuildSetup(op);
    } else if g == 2 {
      DecodeBuildAccountOnly(op);
    } else if g == 3 {
      DecodeBuildOrders(op);
    } else if g == 4 {
      DecodeBuildPortfolio(op);
    } else if g == 5 {
      DecodeBuildListing(op);
    } else if g == 6 {
      DecodeBuildLookup(op);
    } else if g == 7 {
      DecodeBuildCandles(op);
    } else {
      DecodeBuildOperations(op);
    }
  }

  lemma DecodeBuildSetup(op: Operation)
    requires ProofGroup(op) == 1
    ensures DecodeAt(RouteOf(op), Build(op)) == Some(Normalize(op))
  {
  }

  lemma DecodeBuildAccountOnly(op: Operation)
    requires ProofGroup(op) == 2
    ensures DecodeAt(RouteOf(op), Build(op)) == Some(Normalize(op))
  {
  }

  lemma DecodeBuildOrders(op: Operation)
    requires ProofGroup(op) == 3
    ensures DecodeAt(RouteOf(op), Build(op)) == Some(Normalize(op))
  {
  }

  lemma DecodeBuildPortfolio(op: Operation)
    requires ProofGroup(op) == 4
    ensures DecodeAt(RouteOf(op), Build(op)) == Some(Normalize(op))
  {
  }

  lemma DecodeBuildListing(op: Operation)
    requires ProofGroup(op) == 5
    ensures DecodeAt(RouteOf(op), Build(op)) == Some(Normalize(op))
  {
  }

  lemma DecodeBuildLookup(op: Operation)
    requires ProofGroup(op) == 6
    ensures DecodeAt(RouteOf(op), Build(op)) == Some(Normalize(op))
  {
  }

  lemma DecodeBuildCandles(op: Operation)
    requires ProofGroup(op) == 7
    ensures DecodeAt(RouteOf(op), Build(op)) == Some(Normalize(op))
  {
    DecodeCandles(Build(op), op.figi, Isoformat(op.from), Isoformat(op.to), op.interval);
  }

  /** The candles request is read back from its four string parameters. */
  lemma DecodeCandles(r: Request, figi: string, from: string, to: string, interval: CandleResolution)
    requires ParamsOf(r).Some?
    requires var p := ParamsOf(r).value;
      && "figi" in p && p["figi"] == PStr(figi)
      && "from" in p && p["from"] == PStr(from)
      && "to" in p && p["to"] == PStr(to)
      && "interval" in p && p["interval"] == PStr(ResolutionValue(interval))
    ensures DecodeAt(MarketCandlesRoute, r) == Some(GetMarketCandles(figi, Str(from), Str(to), interval))
  {
    ResolutionRoundTrip(interval);
  }

  lemma DecodeBuildOperations(op: Operation)
    requires ProofGroup(op) == 8
    ensures DecodeAt(RouteOf(op), Build(op)) == Some(Normalize(op))
  {
  }

  /** Normalizing a call does not change the request it builds. */
  lemma BuildNormalize(op: Operation)
    ensures Build(Normalize(op)) == Build(op)
  {
    var g := ProofGroup(op);
    if g == 1 {
      BuildNormalizeSetup(op);
    } else if g == 2 {
      BuildNormalizeAccountOnly(op);
    } else if g == 3 {
      BuildNormalizeOrders(op);
    } else if g == 4 {
      BuildNormalizePortfolio(op);
    } else if g == 5 {
      BuildNormalizeListing(op);
    } else if g == 6 {
      BuildNormalizeLookup(op);
    } else if g == 7 {
      BuildNormalizeCandles(op);
    } else {
      BuildNormalizeOperations(op);
    }
  }

  lemma BuildNormalizeSetup(op: Operation)
    requires ProofGroup(op) == 1
    ensures Build(Normalize(op)) == Build(op)
  {
  }

  lemma BuildNormalizeAccountOnly(op: Operation)
    requires ProofGroup(op) == 2
    ensures Build(Normalize(op)) == Build(op)
  {
  }

  lemma BuildNormalizeOrders(op: Operation)
    requires ProofGroup(op) == 3
    ensures Build(Normalize(op)) == Build(op)
  {
  }

  lemma BuildNormalizePortfolio(op: Operation)
    requires ProofGroup(op) == 4
    ensures Build(Normalize(op)) == Build(op)
  {
  }

  lemma BuildNormalizeListing(op: Operation)
    requires ProofGroup(op) == 5
    ensures Build(Normalize(op)) == Build(op)
  {
  }

  lemma BuildNormalizeLookup(op: Operation)
    requires ProofGroup(op) == 6
    ensures Build(Normalize(op)) == Build(op)
  {
  }

  lemma BuildNormalizeCandles(op: Operation)
    requires ProofGroup(op) == 7
    ensures Build(Normalize(op)) == Build(op)
  {
  }

  lemma BuildNormalizeOperations(op: Operation)
    requires ProofGroup(op) == 8
    ensures Build(Normalize(op)) == Build(op)
  {
    assert ParamsOf(Build(op)).value == ParamsOf(Build(Normalize(op))).value;
  }

  /** Two calls build the same request exactly when they agree after normalization. */
  lemma BuildDistinguishes(a: Operation, b: Operation)
    ensures Build(a) == Build(b) <==> Normalize(a) == Normalize(b)
  {
    DecodeBuild(a);
    DecodeBuild(b);
    BuildNormalize(a);
    BuildNormalize(b);
  }
}

=== FILE: constants.dfy ===
/** Endpoint URLs of the brokerage API. */
module Constants {

  const PRODUCTION: string := "https://api-invest.tinkoff.ru/openapi"
  const SANDBOX: string := "https://api-invest.tinkoff.ru/openapi/sandbox"
  const STREAMING: string := "wss://api-invest.tinkoff.ru/openapi/md/v1/md-openapi/ws"

  /** The REST base URL: the sandbox one exactly when `useSandbox` is set. */
  function GetBaseUrl(useSandbox: bool): (url: string)
    ensures url == SANDBOX <==> useSandbox
    ensures url == PRODUCTION <==> !useSandbox
  {
    if useSandbox then SANDBOX else PRODUCTION
  }

  /** The sandbox URL is the production URL with the `/sandbox` segment appended. */
  lemma SandboxExtendsProduction()
    ensures SANDBOX == PRODUCTION + "/sandbox"
    ensures |SANDBOX| == |PRODUCTION| + 8
  {
  }

  /** Which mode a base URL stands for: the partner of `GetBaseUrl`. */
  predicate IsSandboxUrl(url: string) {
    url == SANDBOX
  }

  /** `GetBaseUrl` is injective: the URL determines the mode it was chosen for. */
  lemma BaseUrlRoundTrip(useSandbox: bool)
    ensures IsSandboxUrl(GetBaseUrl(useSandbox)) == useSandbox
    ensures GetBaseUrl(useSandbox) in {SANDBOX, PRODUCTION}
  {
  }
}

=== FILE: event_api.dfy ===
/** `_BaseEventAPI` and its three subclasses (`CandleAPI`, `OrderbookAPI`,
    `InstrumentInfoAPI`): the per-kind registry of active subscriptions, the
    socket it sends on, and the subscribe / unsubscribe messages it emits. */
module EventApis {
  import opened Wrappers
  import opened Exceptions
  import opened Schemas

  // ---------------------------------------------------------------------------
  // State
  // ---------------------------------------------------------------------------

  /** The socket an event API holds: none yet (`_ws is None`), or one that is
      open or already closed. */
  datatype Socket = Detached | Attached(open: bool)

  /** `_send` goes ahead only with a socket that is present and not closed. */
  predicate CanSend(ws: Socket) {
    ws.Attached? && ws.open
  }

  /** One event API: its fixed event kind, its socket and its registry. */
  datatype EventApi = EventApi(kind: Event, ws: Socket, subscriptions: set<Subscription>)

  /** Every registered record belongs to the API's own kind. */
  predicate WellKinded(api: EventApi) {
    forall s :: s in api.subscriptions ==> SubscriptionKind(s) == api.kind
  }

  /** `_BaseEventAPI.__init__`: no socket and an empty registry. */
  function NewEventApi(kind: Event): (api: EventApi)
    ensures api.kind == kind && WellKinded(api)
    ensures !CanSend(api.ws) && api.subscriptions == {}
  {
    EventApi(kind, Detached, {})
  }

  // ---------------------------------------------------------------------------
  // Wire event names
  // ---------------------------------------------------------------------------

  /** `_subscription` / `_unsubscription`: the kind's value, a colon, then the
      action; the name reads back as the kind and action that made it. */
  function ActionEvent(kind: Event, isSubscription: bool): (e: string)
    ensures ParseAction(e) == Some((kind, isSubscription))
  {
    var v := EventValue(kind);
    var action := if isSubscription then "subscribe" else "unsubscribe";
    var e := v + ":" + action;
    EventValueHasNoColon(kind);
    ColonIndexAfterPlain(v, action);
    assert e[..|v|] == v;
    assert e[|v| + 1..] == action;
    EventRoundTrip(kind);
    e
  }

  /** The position of the first colon in `e`, or `|e|` when there is none. */
  function ColonIndex(e: string): (i: nat)
    ensures i <= |e|
    ensures forall j :: 0 <= j < i ==> e[j] != ':'
    ensures i < |e| ==> e[i] == ':'
  {
    if e == [] then 0
    else if e[0] == ':' then 0
    else 1 + ColonIndex(e[1..])
  }

  /** Reads a wire event name back into its kind and action. */
  function ParseAction(e: string): Option<(Event, bool)> {
    var i := ColonIndex(e);
    if i == |e| then None
    else match ParseEvent(e[..i])
      case None => None
      case Some(kind) =>
        if e[i + 1..] == "subscribe" then Some((kind, true))
        else if e[i + 1..] == "unsubscribe" then Some((kind, false))
        else None
  }

  lemma {:induction false} ColonIndexAfterPlain(a: string, b: string)
    requires forall j :: 0 <= j < |a| ==> a[j] != ':'
    ensures ColonIndex(a + ":" + b) == |a|
    decreases |a|
  {
    if a != [] {
      assert (a + ":" + b)[1..] == a[1..] + ":" + b;
      ColonIndexAfterPlain(a[1..], b);
    }
  }

  lemma EventValueHasNoColon(kind: Event)
    ensures forall j :: 0 <= j < |EventValue(kind)| ==> EventValue(kind)[j] != ':'
  {
  }

  /** The event name of a message reads back as the kind and action that made it. */
  lemma ActionEventRoundTrip(kind: Event, isSubscription: bool)
    ensures ParseAction(ActionEvent(kind, isSubscription)) == Some((kind, isSubscription))
  {
  }

  /** Distinct kinds or actions never share a wire event name. */
  lemma ActionEventInjective(k1: Event, b1: bool, k2: Event, b2: bool)
    ensures ActionEvent(k1, b1) == ActionEvent(k2, b2) <==> k1 == k2 && b1 == b2
  {
    ActionEventRoundTrip(k1, b1);
    ActionEventRoundTrip(k2, b2);
  }

  // ---------------------------------------------------------------------------
  // Messages and their JSON rendering
  // ---------------------------------------------------------------------------

  /** `{'event': event, **payload.dict()}`, before rendering. */
  datatype WireMessage = WireMessage(event: string, payload: Subscription)

  datatype Json = JStr(s: string) | JInt(i: int) | JNull

  type JsonObject = map<string, Json>

  function OptionalJson(s: Option<string>): Json {
    match s
    case None => JNull
    case Some(v) => JStr(v)
  }

  /** `payload.dict()`: every field, with `request_id` present (as null when unset)
      and the interval rendered as its enum value. */
  function PayloadJson(s: Subscription): (o: JsonObject)
    ensures "figi" in o && "request_id" in o
    ensures ParsePayload(SubscriptionKind(s), o) == Some(s)
  {
    match s
    case CandleSubscription(figi, interval, rid) =>
      var o := map["figi" := JStr(figi), "interval" := JStr(ResolutionValue(interval)), "request_id" := OptionalJson(rid)];
      RequestIdFieldOfOptional(o, rid);
      ResolutionRoundTrip(interval);
      assert StringField(o, "interval") == Some(ResolutionValue(interval));
      o
    case OrderbookSubscription(figi, depth, rid) =>
      var o := map["figi" := JStr(figi), "depth" := JInt(depth), "request_id" := OptionalJson(rid)];
      RequestIdFieldOfOptional(o, rid);
      o
    case InstrumentInfoSubscription(figi, rid) =>
      var o := map["figi" := JStr(figi), "request_id" := OptionalJson(rid)];
      RequestIdFieldOfOptional(o, rid);
      o
  }

  /** A `request_id` written from an optional string reads back as that option. */
  lemma RequestIdFieldOfOptional(o: JsonObject, rid: Option<string>)
    requires "request_id" in o && o["request_id"] == OptionalJson(rid)
    ensures RequestIdField(o) == Some(rid)
  {
    match rid
    case None =>
    case Some(_) =>
  }

  /** The JSON object `send_json` transmits: the payload's fields plus `event`. */
  function WireJson(m: WireMessage): (o: JsonObject)
    ensures o.Keys == PayloadJson(m.payload).Keys + {"event"}
    ensures o["event"] == JStr(m.event)
    ensures forall k :: k in o && k != "event" ==> o[k] == PayloadJson(m.payload)[k]
  {
    PayloadJson(m.payload)["event" := JStr(m.event)]
  }

  function StringField(o: JsonObject, key: string): Option<string> {
    if key in o && o[key].JStr? then Some(o[key].s) else None
  }

  /** A `request_id` field: absent or null is unset, a string is set, anything else is malformed. */
  function RequestIdField(o: JsonObject): Option<Option<string>> {
    if "request_id" !in o then Some(None)
    else match o["request_id"]
      case JNull => Some(None)
      case JStr(v) => Some(Some(v))
      case JInt(_) => None
  }

  /** Reads a subscription record of the given kind from its fields. */
  function ParsePayload(kind: Event, o: JsonObject): Option<Subscription> {
    match (StringField(o, "figi"), RequestIdField(o))
    case (Some(figi), Some(rid)) =>
      (match kind
       case Candle =>
         (match StringField(o, "interval")
          case Some(iv) =>
            (match ParseResolution(iv)
             case Some(interval) => Some(CandleSubscription(figi, interval, rid))
             case None => None)
          case None => None)
       case Orderbook =>
         if "depth" in o && o["depth"].JInt? then Some(OrderbookSubscription(figi, o["depth"].i, rid)) else None
       case InstrumentInfo => Some(InstrumentInfoSubscription(figi, rid))
       case Error => None)
    case _ => None
  }

  /** Reads a transmitted object back into the message, as the server would. */
  function ParseWireJson(o: JsonObject): Option<WireMessage> {
    match StringField(o, "event")
    case None => None
    case Some(e) =>
      match ParseAction(e)
      case None => None
      case Some((kind, _)) =>
        match ParsePayload(kind, o)
        case None => None
        case Some(s) => Some(WireMessage(e, s))
  }

  /** Every message sent can be read back from its JSON: kind, action and all
      fields, `request_id` included. */
  lemma WireJsonRoundTrip(m: WireMessage, isSubscription: bool)
    requires m.event == ActionEvent(SubscriptionKind(m.payload), isSubscription)
    ensures ParseWireJson(WireJson(m)) == Some(m)
  {
    var o := WireJson(m);
    ActionEventRoundTrip(SubscriptionKind(m.payload), isSubscription);
    assert StringField(o, "event") == Some(m.event);
    ParsePayloadOfWire(m);
  }

  lemma ParsePayloadOfWire(m: WireMessage)
    ensures ParsePayload(SubscriptionKind(m.payload), WireJson(m)) == Some(m.payload)
  {
    var o := WireJson(m);
    assert StringField(o, "figi") == Some(m.payload.figi);
    assert RequestIdField(o) == Some(m.payload.requestId) by {
      match m.payload.requestId
      case None =>
      case Some(_) =>
    }
    match m.payload
    case CandleSubscription(figi, interval, rid) =>
      ResolutionRoundTrip(interval);
      assert StringField(o, "interval") == Some(ResolutionValue(interval));
    case OrderbookSubscription(_, _, _) =>
    case InstrumentInfoSubscription(_, _) =>
  }

  // ---------------------------------------------------------------------------
  // _send
  // ---------------------------------------------------------------------------

  /** What one `_send` leaves behind: the API's new state and the message it
      transmitted, if any. The coroutine's boolean result is `message.Some?`. */
  datatype Sent = Sent(api: EventApi, message: Option<WireMessage>)

  /** `_send(payload, is_subscription)`. Without an open socket nothing happens;
      a subscription is added to the registry, an unsubscription removed with
      `set.remove`, which raises `KeyError` for a record not registered. */
  function Send(api: EventApi, payload: Subscription, isSubscription: bool): (r: Outcome<Sent, Exception>)
    ensures !CanSend(api.ws) ==> r == Ok(Sent(api, None))
    ensures r.Raised? <==> CanSend(api.ws) && !isSubscription && payload !in api.subscriptions
    ensures r.Raised? ==> r.error == KeyError
    ensures r.Ok? ==> r.value.api.kind == api.kind && r.value.api.ws == api.ws
    ensures r.Ok? ==> (r.value.message.Some? <==> CanSend(api.ws))
    ensures r.Ok? && CanSend(api.ws) ==>
      r.value.message == Some(WireMessage(ActionEvent(api.kind, isSubscription), payload))
    ensures r.Ok? && CanSend(api.ws) ==>
      (payload in r.value.api.subscriptions <==> isSubscription)
    ensures r.Ok? ==> forall s :: s != payload ==>
      (s in r.value.api.subscriptions <==> s in api.subscriptions)
  {
    if !CanSend(api.ws) then Ok(Sent(api, None))
    else if isSubscription then
      Ok(Sent(api.(subscriptions := api.subscriptions + {payload}),
              Some(WireMessage(ActionEvent(api.kind, true), payload))))
    else if payload !in api.subscriptions then Raised(KeyError)
    else
      Ok(Sent(api.(subscriptions := api.subscriptions - {payload}),
              Some(WireMessage(ActionEvent(api.kind, false), payload))))
  }

  /** Subscribing twice registers once and sends twice: the registry is a set. */
  lemma SubscribeIdempotent(api: EventApi, s: Subscription)
    ensures Send(Send(api, s, true).value.api, s, true).value.api == Send(api, s, true).value.api
  {
  }

  /** Subscribing a new record and unsubscribing it restores the registry. */
  lemma SubscribeThenUnsubscribe(api: EventApi, s: Subscription)
    requires s !in api.subscriptions
    ensures Send(Send(api, s, true).value.api, s, false).Ok?
    ensures Send(Send(api, s, true).value.api, s, false).value.api == api
  {
    var a := Send(api, s, true).value.api;
    if CanSend(api.ws) {
      assert a.subscriptions - {s} == api.subscriptions;
    }
  }

  /** Unsubscribing a record never subscribed, on a live socket, raises before sending. */
  lemma UnsubscribeUnknownRaises(api: EventApi, s: Subscription)
    requires CanSend(api.ws) && s !in api.subscriptions
    ensures Send(api, s, false) == Raised(KeyError)
  {
  }

  /** Two records differing only in `requestId` hash alike yet are both kept:
      membership follows field-wise equality, not the hash key. */
  lemma RequestIdSeparatesRecords(api: EventApi, s: Subscription, rid: Option<string>)
    requires CanSend(api.ws) && rid != s.requestId
    ensures HashKey(s.(requestId := rid)) == HashKey(s)
    ensures var a := Send(Send(api, s, true).value.api, s.(requestId := rid), true).value.api;
      s in a.subscriptions && s.(requestId := rid) in a.subscriptions
  {
    HashKeyIgnoresRequestId(s, rid);
  }

  /** A subscription of the API's own kind keeps every record of that kind. */
  lemma SendKeepsWellKinded(api: EventApi, s: Subscription, isSubscription: bool)
    requires WellKinded(api) && SubscriptionKind(s) == api.kind
    ensures Send(api, s, isSubscription).Ok? ==> WellKinded(Send(api, s, isSubscription).value.api)
  {
  }

  // ---------------------------------------------------------------------------
  // _subscribe_all / _unsubscribe_all
  // ---------------------------------------------------------------------------

  /** No record appears twice. */
  predicate Distinct(order: seq<Subscription>) {
    forall i, j :: 0 <= i < j < |order| ==> order[i] != order[j]
  }

  /** `order` lists the elements of `s`, each once: what `list(set)` yields, in
      an order the language leaves unspecified. */
  predicate Enumerates(order: seq<Subscription>, s: set<Subscription>) {
    Distinct(order) && (forall x :: x in order ==> x in s) && (forall x :: x in s ==> x in order)
  }

  /** Some listing of every registry exists (the precondition of the bulk
      operations below can always be met). */
  ghost function Enumeration(s: set<Subscription>): (order: seq<Subscription>)
    ensures Enumerates(order, s)
  {
    if s == {} then []
    else
      var x :| x in s;
      var rest := Enumeration(s - {x});
      assert forall i :: 0 <= i < |rest| ==> rest[i] != x;
      [x] + rest
  }

  /** The messages announcing `order` with one action, in order. */
  function Announce(kind: Event, isSubscription: bool, order: seq<Subscription>): (m: seq<WireMessage>)
    ensures |m| == |order|
    ensures forall i :: 0 <= i < |order| ==> m[i] == WireMessage(ActionEvent(kind, isSubscription), order[i])
  {
    if order == [] then []
    else [WireMessage(ActionEvent(kind, isSubscription), order[0])] + Announce(kind, isSubscription, order[1..])
  }

  /** The state after a run of sends and what they transmitted, in order. */
  datatype Batch = Batch(api: EventApi, messages: seq<WireMessage>)

  function MessageSeq(m: Option<WireMessage>): seq<WireMessage> {
    match m
    case None => []
    case Some(x) => [x]
  }

  /** The loop body of `_subscribe_all` / `_unsubscribe_all`: `_send` each record
      of `order` in turn; the first exception ends the loop. */
  function SendEach(api: EventApi, order: seq<Subscription>, isSubscription: bool): (r: Outcome<Batch, Exception>)
    ensures !CanSend(api.ws) ==> r == Ok(Batch(api, []))
    ensures isSubscription ==> r.Ok?
    ensures r.Raised? ==> r.error == KeyError && !isSubscription && CanSend(api.ws)
    ensures r.Ok? ==> r.value.api.kind == api.kind && r.value.api.ws == api.ws
    ensures r.Ok? && CanSend(api.ws) ==> r.value.messages == Announce(api.kind, isSubscription, order)
    ensures r.Ok? ==> forall x :: x !in order ==> (x in r.value.api.subscriptions <==> x in api.subscriptions)
    decreases |order|
  {
    if order == [] then Ok(Batch(api, []))
    else match Send(api, order[0], isSubscription)
      case Raised(e) => Raised(e)
      case Ok(sent) =>
        match SendEach(sent.api, order[1..], isSubscription)
        case Raised(e) => Raised(e)
        case Ok(rest) =>
          assert !CanSend(api.ws) ==> MessageSeq(sent.message) + rest.messages == [];
          Ok(Batch(rest.api, MessageSeq(sent.message) + rest.messages))
  }

  /** Without an open socket every send is skipped. */
  lemma {:induction false} SendEachWithoutSocket(api: EventApi, order: seq<Subscription>, isSubscription: bool)
    requires !CanSend(api.ws)
    ensures SendEach(api, order, isSubscription) == Ok(Batch(api, []))
    decreases |order|
  {
    if order != [] {
      assert Send(api, order[0], isSubscription) == Ok(Sent(api, None));
      SendEachWithoutSocket(api, order[1..], isSubscription);
      assert MessageSeq(None) + [] == [];
    }
  }

  /** Re-subscribing registered records leaves the registry as it was and
      announces each of them. */
  lemma {:induction false} ResubscribeEach(api: EventApi, order: seq<Subscription>)
    requires CanSend(api.ws)
    requires forall x :: x in order ==> x in api.subscriptions
    ensures SendEach(api, order, true) == Ok(Batch(api, Announce(api.kind, true, order)))
    decreases |order|
  {
    if order != [] {
      assert api.subscriptions + {order[0]} == api.subscriptions;
      ResubscribeEach(api, order[1..]);
    }
  }

  /** Unsubscribing distinct registered records removes exactly those records
      and announces each of them. */
  lemma {:induction false} UnsubscribeEach(api: EventApi, order: seq<Subscription>)
    requires CanSend(api.ws) && Distinct(order)
    requires forall x :: x in order ==> x in api.subscriptions
    ensures SendEach(api, order, false) ==
      Ok(Batch(api.(subscriptions := api.subscriptions - set x | x in order), Announce(api.kind, false, order)))
    decreases |order|
  {
    if order != [] {
      var next := api.(subscriptions := api.subscriptions - {order[0]});
      assert Send(api, order[0], false) == Ok(Sent(next, Some(WireMessage(ActionEvent(api.kind, false), order[0]))));
      UnsubscribeStep(api.subscriptions, order);
      UnsubscribeEach(next, order[1..]);
      var rest := SendEach(next, order[1..], false).value;
      assert SendEach(api, order, false) ==
        Ok(Batch(rest.api, [WireMessage(ActionEvent(api.kind, false), order[0])] + rest.messages));
      assert [WireMessage(ActionEvent(api.kind, false), order[0])] + Announce(api.kind, false, order[1..])
        == Announce(api.kind, false, order);
    } else {
      assert api.subscriptions - (set x | x in order) == api.subscriptions;
    }
  }

  /** After the first record of a distinct registered run is removed, the rest
      of the run is still distinct and registered, and removing it leaves what
      removing the whole run leaves. */
  lemma UnsubscribeStep(subscriptions: set<Subscription>, order: seq<Subscription>)
    requires order != [] && Distinct(order)
    requires forall x :: x in order ==> x in subscriptions
    ensures Distinct(order[1..])
    ensures forall x :: x in order[1..] ==> x in subscriptions - {order[0]}
    ensures (subscriptions - {order[0]}) - (set x | x in order[1..]) == subscriptions - (set x | x in order)
  {
    forall x | x in order[1..] ensures x in subscriptions - {order[0]} {
      var k :| 1 <= k < |order| && order[k] == x;
    }
    assert Distinct(order[1..]);
  }

  /** `_subscribe_all`: replays every registered record on the current socket.
      The registry is unchanged; on an open socket each record is announced once. */
  function SubscribeAll(api: EventApi, order: seq<Subscription>): (b: Batch)
    requires Enumerates(order, api.subscriptions)
    ensures b.api == api
    ensures CanSend(api.ws) ==> b.messages == Announce(api.kind, true, order)
    ensures !CanSend(api.ws) ==> b.messages == []
  {
    if CanSend(api.ws) then
      ResubscribeEach(api, order);
      SendEach(api, order, true).value
    else
      SendEachWithoutSocket(api, order, true);
      SendEach(api, order, true).value
  }

  /** `_unsubscribe_all`: on an open socket every registered record is
      unsubscribed and announced and the registry ends empty; without one,
      nothing changes. */
  function UnsubscribeAll(api: EventApi, order: seq<Subscription>): (b: Batch)
    requires Enumerates(order, api.subscriptions)
    ensures b.api.kind == api.kind && b.api.ws == api.ws
    ensures CanSend(api.ws) ==> b.api.subscriptions == {} && b.messages == Announce(api.kind, false, order)
    ensures !CanSend(api.ws) ==> b == Batch(api, [])
  {
    if CanSend(api.ws) then
      UnsubscribeEach(api, order);
      assert api.subscriptions - (set x | x in order) == {};
      SendEach(api, order, false).value
    else
      SendEachWithoutSocket(api, order, false);
      SendEach(api, order, false).value
  }
}

=== FILE: exceptions.dfy ===
/** The exceptions the modelled code raises or catches, as tags. */
module Exceptions {

  datatype Exception =
    /** Python's `ValueError`, raised by token validation. */
    | ValueError(message: string)
    /** Python's `KeyError`, raised by `set.remove` of an absent element. */
    | KeyError
    /** pydantic's `ValidationError`: a frame or payload that does not fit its schema. */
    | ValidationError
    /** `BadRequestError(raw)`: HTTP 400; the raw body is kept, its JSON parse is not modelled. */
    | BadRequestError(raw: string)
    /** `TooManyRequestsError`: HTTP 429. */
    | TooManyRequestsError
    /** `UnexpectedError(status, text)`: any other non-200 status. */
    | UnexpectedError(status: int, text: string)
    /** `_ClosedSessionError`: the streaming session is already closed. */
    | ClosedSessionError
    /** `asyncio.TimeoutError`. */
    | TimeoutError
    /** `aiohttp.ClientConnectorError`. */
    | ClientConnectorError
    /** Any other exception a transport may raise, by name. */
    | OtherError(name: string)

  const EMPTY_TOKEN_MESSAGE: string := "Token can not be empty"
}

=== FILE: schemas.dfy ===
/** The records and enumerations of the API: wire enumerations, request bodies,
    streaming events and the three streaming subscription records. */
module Schemas {
  import opened Wrappers
  import opened Typedefs

  // ---------------------------------------------------------------------------
  // Enumerations with their wire values
  // ---------------------------------------------------------------------------

  datatype BrokerAccountType = Tinkoff | TinkoffIis

  function BrokerAccountTypeValue(t: BrokerAccountType): string {
    match t
    case Tinkoff => "Tinkoff"
    case TinkoffIis => "TinkoffIis"
  }

  /** Candle intervals; `ResolutionValue` gives the string sent on the wire. */
  datatype CandleResolution =
    | Min1 | Min2 | Min3 | Min5 | Min10 | Min15 | Min30 | Hour | Day | Week | Month

  function ResolutionValue(r: CandleResolution): string {
    match r
    case Min1 => "1min"
    case Min2 => "2min"
    case Min3 => "3min"
    case Min5 => "5min"
    case Min10 => "10min"
    case Min15 => "15min"
    case Min30 => "30min"
    case Hour => "hour"
    case Day => "day"
    case Week => "week"
    case Month => "month"
  }

  /** Every resolution, in declaration order. */
  const ALL_RESOLUTIONS: seq<CandleResolution> :=
    [Min1, Min2, Min3, Min5, Min10, Min15, Min30, Hour, Day, Week, Month]

  /** Enum lookup by value, as pydantic validates an incoming `interval`. */
  function ParseResolution(s: string): (r: Option<CandleResolution>)
    ensures r.Some? ==> ResolutionValue(r.value) == s
    ensures r.None? ==> forall x: CandleResolution :: ResolutionValue(x) != s
  {
    if s == "1min" then Some(Min1)
    else if s == "2min" then Some(Min2)
    else if s == "3min" then Some(Min3)
    else if s == "5min" then Some(Min5)
    else if s == "10min" then Some(Min10)
    else if s == "15min" then Some(Min15)
    else if s == "30min" then Some(Min30)
    else if s == "hour" then Some(Hour)
    else if s == "day" then Some(Day)
    else if s == "week" then Some(Week)
    else if s == "month" then Some(Month)
    else None
  }

  /** Looking up a resolution's own wire value gives that resolution back. */
  lemma ResolutionRoundTrip(r: CandleResolution)
    ensures ParseResolution(ResolutionValue(r)) == Some(r)
  {
  }

  /** There are exactly eleven resolutions, with eleven distinct wire values
      `1min` ... `month`. */
  lemma ResolutionsAreEleven()
    ensures |ALL_RESOLUTIONS| == 11
    ensures forall r: CandleResolution :: r in ALL_RESOLUTIONS
    ensures forall i, j :: 0 <= i < j < |ALL_RESOLUTIONS| ==>
      ResolutionValue(ALL_RESOLUTIONS[i]) != ResolutionValue(ALL_RESOLUTIONS[j])
    ensures (set r | r in ALL_RESOLUTIONS :: ResolutionValue(r)) ==
      {"1min", "2min", "3min", "5min", "10min", "15min", "30min", "hour", "day", "week", "month"}
  {
    forall i, j | 0 <= i < j < |ALL_RESOLUTIONS|
      ensures ResolutionValue(ALL_RESOLUTIONS[i]) != ResolutionValue(ALL_RESOLUTIONS[j])
    {
      assert ResolutionIndex(ALL_RESOLUTIONS[i]) == i;
      assert ResolutionIndex(ALL_RESOLUTIONS[j]) == j;
      ResolutionRoundTrip(ALL_RESOLUTIONS[i]);
      ResolutionRoundTrip(ALL_RESOLUTIONS[j]);
    }
    forall r: CandleResolution ensures r in ALL_RESOLUTIONS {
      assert ALL_RESOLUTIONS[ResolutionIndex(r)] == r;
    }
    ResolutionValueNames();
  }

  lemma ResolutionValueNames()
    ensures (set r | r in ALL_RESOLUTIONS :: ResolutionValue(r)) ==
      {"1min", "2min", "3min", "5min", "10min", "15min", "30min", "hour", "day", "week", "month"}
  {
    ResolutionValuesNamed();
    ResolutionNamesValued();
  }

  lemma ResolutionValuesNamed()
    ensures (set r | r in ALL_RESOLUTIONS :: ResolutionValue(r)) <=
      {"1min", "2min", "3min", "5min", "10min", "15min", "30min", "hour", "day", "week", "month"}
  {
    var names := {"1min", "2min", "3min", "5min", "10min", "15min", "30min", "hour", "day", "week", "month"};
    forall r | r in ALL_RESOLUTIONS ensures ResolutionValue(r) in names {
      match r
      case Min1 =>
      case Min2 =>
      case Min3 =>
      case Min5 =>
      case Min10 =>
      case Min15 =>
      case Min30 =>
      case Hour =>
      case Day =>
      case Week =>
      case Month =>
    }
  }

  lemma ResolutionNamesValued()
    ensures {"1min", "2min", "3min", "5min", "10min", "15min", "30min", "hour", "day", "week", "month"} <=
      (set r | r in ALL_RESOLUTIONS :: ResolutionValue(r))
  {
    var names := {"1min", "2min", "3min", "5min", "10min", "15min", "30min", "hour", "day", "week", "month"};
    forall v | v in names ensures exists r :: r in ALL_RESOLUTIONS && ResolutionValue(r) == v {
      var r := ParseResolution(v).value;
      assert ALL_RESOLUTIONS[ResolutionIndex(r)] == r;
    }
  }

  /** The position of a resolution in `ALL_RESOLUTIONS`. */
  function ResolutionIndex(r: CandleResolution): nat {
    match r
    case Min1 => 0
    case Min2 => 1
    case Min3 => 2
    case Min5 => 3
    case Min10 => 4
    case Min15 => 5
    case Min30 => 6
    case Hour => 7
    case Day => 8
    case Week => 9
    case Month => 10
  }

  /** The discriminator of a streaming frame. */
  datatype Event = Candle | Orderbook | InstrumentInfo | Error

  function EventValue(e: Event): string {
    match e
    case Candle => "candle"
    case Orderbook => "orderbook"
    case InstrumentInfo => "instrument_info"
    case Error => "error"
  }

  const ALL_EVENTS: seq<Event> := [Candle, Orderbook, InstrumentInfo, Error]

  /** Enum lookup by value: how the `event` field of an inbound frame is validated. */
  function ParseEvent(s: string): (r: Option<Event>)
    ensures r.Some? ==> EventValue(r.value) == s
    ensures r.None? ==> forall e: Event :: EventValue(e) != s
  {
    if s == "candle" then Some(Candle)
    else if s == "orderbook" then Some(Orderbook)
    else if s == "instrument_info" then Some(InstrumentInfo)
    else if s == "error" then Some(Error)
    else None
  }

  lemma EventRoundTrip(e: Event)
    ensures ParseEvent(EventValue(e)) == Some(e)
  {
  }

  /** There are exactly four event tags with four distinct wire values. */
  lemma EventsAreFour()
    ensures |ALL_EVENTS| == 4
    ensures forall e: Event :: e in ALL_EVENTS
    ensures forall i, j :: 0 <= i < j < |ALL_EVENTS| ==>
      EventValue(ALL_EVENTS[i]) != EventValue(ALL_EVENTS[j])
    ensures (set e | e in ALL_EVENTS :: EventValue(e)) ==
      {"candle", "orderbook", "instrument_info", "error"}
  {
    forall i, j | 0 <= i < j < |ALL_EVENTS|
      ensures EventValue(ALL_EVENTS[i]) != EventValue(ALL_EVENTS[j])
    {
      EventRoundTrip(ALL_EVENTS[i]);
      EventRoundTrip(ALL_EVENTS[j]);
    }
    forall e: Event ensures e in ALL_EVENTS {
      match e
      case Candle => assert ALL_EVENTS[0] == e;
      case Orderbook => assert ALL_EVENTS[1] == e;
      case InstrumentInfo => assert ALL_EVENTS[2] == e;
      case Error => assert ALL_EVENTS[3] == e;
    }
    EventValueNames();
  }

  lemma EventValueNames()
    ensures (set e | e in ALL_EVENTS :: EventValue(e)) == {"candle", "orderbook", "instrument_info", "error"}
  {
    var values := set e | e in ALL_EVENTS :: EventValue(e);
    var names := {"candle", "orderbook", "instrument_info", "error"};
    forall v | v in values ensures v in names {
      var e :| e in ALL_EVENTS && EventValue(e) == v;
      match e
      case Candle =>
      case Orderbook =>
      case InstrumentInfo =>
      case Error =>
    }
    forall v | v in names ensures v in values {
      var e := ParseEvent(v).value;
      assert e in ALL_EVENTS && EventValue(e) == v;
    }
  }

  datatype OperationType = Buy | Sell

  datatype SandboxCurrency = RUB | USD | EUR | GBP | HKD | CHF | JPY | CNY | TRY

  // ---------------------------------------------------------------------------
  // REST request bodies and response models
  // ---------------------------------------------------------------------------

  datatype SandboxRegisterRequest = SandboxRegisterRequest(brokerAccountType: BrokerAccountType)

  /** `SandboxRegisterRequest.tinkoff()`. */
  function TinkoffRegisterRequest(): (r: SandboxRegisterRequest)
    ensures BrokerAccountTypeValue(r.brokerAccountType) == "Tinkoff"
  {
    SandboxRegisterRequest(Tinkoff)
  }

  /** `SandboxRegisterRequest.tinkoff_iis()`. */
  function TinkoffIisRegisterRequest(): (r: SandboxRegisterRequest)
    ensures BrokerAccountTypeValue(r.brokerAccountType) == "TinkoffIis"
  {
    SandboxRegisterRequest(TinkoffIis)
  }

  datatype SandboxSetCurrencyBalanceRequest =
    SandboxSetCurrencyBalanceRequest(balance: Decimal, currency: SandboxCurrency)

  datatype SandboxSetPositionBalanceRequest =
    SandboxSetPositionBalanceRequest(balance: Decimal, figi: Option<string>)

  datatype LimitOrderRequest = LimitOrderRequest(lots: int, operation: OperationType, price: Decimal)

  datatype MarketOrderRequest = MarketOrderRequest(lots: int, operation: OperationType)

  /** A request body handed to the transport as `data`; its JSON rendering is pydantic's. */
  datatype RequestBody =
    | RegisterBody(register: SandboxRegisterRequest)
    | CurrencyBalanceBody(currencyBalance: SandboxSetCurrencyBalanceRequest)
    | PositionBalanceBody(positionBalance: SandboxSetPositionBalanceRequest)
    | LimitOrderBody(limitOrder: LimitOrderRequest)
    | MarketOrderBody(marketOrder: MarketOrderRequest)

  /** The response model class a REST call parses its body into. */
  datatype ResponseModel =
    | SandboxRegisterResponse
    | Empty
    | OrdersResponse
    | LimitOrderResponse
    | MarketOrderResponse
    | PortfolioResponse
    | PortfolioCurrenciesResponse
    | MarketInstrumentListResponse
    | OrderbookResponse
    | CandlesResponse
    | SearchMarketInstrumentResponse
    | OperationsResponse
    | UserAccountsResponse

  // ---------------------------------------------------------------------------
  // Streaming events
  // ---------------------------------------------------------------------------

  /** `Candle` (aliased `CandleStreaming`): OHLC prices, volume, interval and instrument. */
  datatype CandleStreaming = CandleStreaming(
    c: Decimal, figi: string, h: Decimal, interval: CandleResolution,
    l: Decimal, o: Decimal, time: DateTime, v: int)

  datatype OrderbookStreaming = OrderbookStreaming(
    figi: string, depth: int, bids: seq<(Decimal, Decimal)>, asks: seq<(Decimal, Decimal)>)

  datatype InstrumentInfoStreaming = InstrumentInfoStreaming(
    figi: string, tradeStatus: string, minPriceIncrement: Decimal, lot: Decimal,
    accruedInterest: Option<Decimal>, limitUp: Option<Decimal>, limitDown: Option<Decimal>)

  datatype ErrorStreaming = ErrorStreaming(error: string, requestId: Option<string>)

  /** The `payload` dictionary of an inbound frame, by the record shape it validates as. */
  datatype Payload =
    | CandlePayload(candle: CandleStreaming)
    | OrderbookPayload(orderbook: OrderbookStreaming)
    | InstrumentInfoPayload(instrumentInfo: InstrumentInfoStreaming)
    | ErrorPayload(err: ErrorStreaming)
    | UnrecognisedPayload

  /** `StreamingResponse`: the untyped frame with a validated `event` tag. */
  datatype StreamingResponse = StreamingResponse(event: Event, time: DateTime, payload: Payload)

  /** The four typed streaming responses. Each variant's `event` field is a
      `Literal` fixed to its own tag, so it is a member here, not a field. */
  datatype TypedResponse =
    | InstrumentInfoStreamingResponse(time: DateTime, instrumentInfo: InstrumentInfoStreaming)
    | OrderbookStreamingResponse(time: DateTime, orderbook: OrderbookStreaming)
    | CandleStreamingResponse(time: DateTime, candle: CandleStreaming)
    | ErrorStreamingResponse(time: DateTime, err: ErrorStreaming)
  {
    function event(): Event {
      match this
      case InstrumentInfoStreamingResponse(_, _) => InstrumentInfo
      case OrderbookStreamingResponse(_, _) => Orderbook
      case CandleStreamingResponse(_, _) => Candle
      case ErrorStreamingResponse(_, _) => Error
    }
  }

  // ---------------------------------------------------------------------------
  // Streaming subscriptions
  // ---------------------------------------------------------------------------

  /** The three subscription records. Equality is field-wise (pydantic model
      equality), so `requestId` takes part in it. */
  datatype Subscription =
    | CandleSubscription(figi: string, interval: CandleResolution, requestId: Option<string>)
    | OrderbookSubscription(figi: string, depth: int, requestId: Option<string>)
    | InstrumentInfoSubscription(figi: string, requestId: Option<string>)

  /** The event kind a subscription record belongs to. */
  function SubscriptionKind(s: Subscription): Event {
    match s
    case CandleSubscription(_, _, _) => Candle
    case OrderbookSubscription(_, _, _) => Orderbook
    case InstrumentInfoSubscription(_, _) => InstrumentInfo
  }

  /** The tuple each record's `__hash__` hashes. */
  datatype IdentityKey =
    | CandleKey(figi: string, interval: CandleResolution)
    | OrderbookKey(figi: string, depth: int)
    | InstrumentInfoKey(figi: string)

  function HashKey(s: Subscription): (k: IdentityKey)
    ensures k.figi == s.figi
    ensures k.CandleKey? <==> s.CandleSubscription?
    ensures k.OrderbookKey? <==> s.OrderbookSubscription?
    ensures k.CandleKey? ==> k.interval == s.interval
    ensures k.OrderbookKey? ==> k.depth == s.depth
  {
    match s
    case CandleSubscription(figi, interval, _) => CandleKey(figi, interval)
    case OrderbookSubscription(figi, depth, _) => OrderbookKey(figi, depth)
    case InstrumentInfoSubscription(figi, _) => InstrumentInfoKey(figi)
  }

  /** The hash key ignores the correlation id: two records that differ only in
      `requestId` hash alike, for every kind. */
  lemma HashKeyIgnoresRequestId(s: Subscription, rid: Option<string>)
    ensures HashKey(s.(requestId := rid)) == HashKey(s)
  {
  }

  /** The key is strictly coarser than equality: there are unequal records
      (differing only in `requestId`) with the same key. */
  lemma HashKeyCoarserThanEquality()
    ensures exists a, b: Subscription :: a != b && HashKey(a) == HashKey(b)
  {
    var a := CandleSubscription("BBG0013HGFT4", Min1, None);
    var b := CandleSubscription("BBG0013HGFT4", Min1, Some("123ASD1123"));
    assert a != b && HashKey(a) == HashKey(b);
  }

  /** The key of a record determines its kind and every field but `requestId`. */
  lemma HashKeyDeterminesRecord(a: Subscription, b: Subscription)
    requires HashKey(a) == HashKey(b)
    ensures SubscriptionKind(a) == SubscriptionKind(b)
    ensures a.figi == b.figi
    ensures a == b.(requestId := a.requestId)
  {
  }
}

=== FILE: streaming.dfy ===
/** The `Streaming` websocket client: frame parsing, the event queue, the
    connection handler that replays subscriptions, the reconnect loop, and the
    stop / consume lifecycle. Each coroutine is a function of the state and of
    what the environment did (the frames received, how a connection attempt
    went); the observable order of effects is kept in a trace. */
module StreamingClient {
  import opened Wrappers
  import opened Exceptions
  import opened Typedefs
  import opened Schemas
  import opened Utils
  import opened EventApis

  // ---------------------------------------------------------------------------
  // Parsing inbound frames
  // ---------------------------------------------------------------------------

  /** A text frame's JSON: the raw `event` string, the timestamp and the payload. */
  datatype RawFrame = RawFrame(event: string, time: DateTime, payload: Payload)

  /** `StreamingResponse.parse_raw`: the `event` string must name one of the four tags. */
  function ParseRaw(f: RawFrame): (r: Outcome<StreamingResponse, Exception>)
    ensures r.Ok? <==> exists e: Event :: EventValue(e) == f.event
    ensures r.Ok? ==> EventValue(r.value.event) == f.event && r.value.time == f.time && r.value.payload == f.payload
    ensures r.Raised? ==> r.error == ValidationError
  {
    match ParseEvent(f.event)
    case Some(e) => Ok(StreamingResponse(e, f.time, f.payload))
    case None => Raised(ValidationError)
  }

  /** The frame a server sends for a validated response. */
  function RenderFrame(r: StreamingResponse): RawFrame {
    RawFrame(EventValue(r.event), r.time, r.payload)
  }

  lemma ParseRawRoundTrip(r: StreamingResponse)
    ensures ParseRaw(RenderFrame(r)) == Ok(r)
  {
    EventRoundTrip(r.event);
  }

  /** Whether a payload validates as the record its tag selects. */
  predicate PayloadFits(event: Event, p: Payload) {
    match event
    case Candle => p.CandlePayload?
    case Orderbook => p.OrderbookPayload?
    case InstrumentInfo => p.InstrumentInfoPayload?
    case Error => p.ErrorPayload?
  }

  /** `_parse_response`: the tag selects one of the four typed responses; a
      payload that does not validate as that record raises. */
  function ParseResponse(r: StreamingResponse): (t: Outcome<TypedResponse, Exception>)
    ensures t.Ok? <==> PayloadFits(r.event, r.payload)
    ensures t.Ok? ==> t.value.event() == r.event && t.value.time == r.time
    ensures t.Raised? ==> t.error == ValidationError
  {
    match r.event
    case InstrumentInfo =>
      (match r.payload
       case InstrumentInfoPayload(x) => Ok(InstrumentInfoStreamingResponse(r.time, x))
       case _ => Raised(ValidationError))
    case Orderbook =>
      (match r.payload
       case OrderbookPayload(x) => Ok(OrderbookStreamingResponse(r.time, x))
       case _ => Raised(ValidationError))
    case Candle =>
      (match r.payload
       case CandlePayload(x) => Ok(CandleStreamingResponse(r.time, x))
       case _ => Raised(ValidationError))
    case Error =>
      (match r.payload
       case ErrorPayload(x) => Ok(ErrorStreamingResponse(r.time, x))
       case _ => Raised(ValidationError))
  }

  /** A typed response as an untyped frame (`.dict()`). */
  function Untyped(t: TypedResponse): StreamingResponse {
    match t
    case InstrumentInfoStreamingResponse(time, x) => StreamingResponse(InstrumentInfo, time, InstrumentInfoPayload(x))
    case OrderbookStreamingResponse(time, x) => StreamingResponse(Orderbook, time, OrderbookPayload(x))
    case CandleStreamingResponse(time, x) => StreamingResponse(Candle, time, CandlePayload(x))
    case ErrorStreamingResponse(time, x) => StreamingResponse(Error, time, ErrorPayload(x))
  }

  /** Every typed response survives the trip through its untyped frame ... */
  lemma ParseResponseRoundTrip(t: TypedResponse)
    ensures ParseResponse(Untyped(t)) == Ok(t)
  {
  }

  /** ... and every frame that parses is the untyped form of what it parsed to. */
  lemma ParseResponseFaithful(r: StreamingResponse)
    requires ParseResponse(r).Ok?
    ensures Untyped(ParseResponse(r).value) == r
  {
  }

  /** A frame whose `event` names a tag its payload does not fit is rejected,
      whatever the tag. */
  lemma MismatchedPayloadRejected(e: Event, time: DateTime, p: Payload)
    requires !PayloadFits(e, p)
    ensures ParseResponse(StreamingResponse(e, time, p)) == Raised(ValidationError)
  {
  }

  // ---------------------------------------------------------------------------
  // State
  // ---------------------------------------------------------------------------

  /** An element of the event queue: a typed response or the `STOP_QUEUE` sentinel. */
  datatype QueueItem = Item(response: TypedResponse) | StopQueue

  /** The effects whose relative order the client's behaviour depends on. */
  datatype Effect =
    | Transmitted(message: WireMessage)
    | Enqueued(item: QueueItem)
    | ReadySet
    | ReadyCleared
    | WsClosedSet
    | WsClosedCleared

  /** The client: token, reconnect flag, whether the HTTP session is closed, the
      three event APIs, the queue contents and the trace of effects so far. */
  datatype Streaming = Streaming(
    token: string, reconnectEnabled: bool, sessionClosed: bool,
    candle: EventApi, instrumentInfo: EventApi, orderbook: EventApi,
    queue: seq<QueueItem>, trace: seq<Effect>)

  /** Each attribute holds the API of its own kind, and each registry only records of that kind. */
  predicate Valid(c: Streaming) {
    && c.candle.kind == Candle && WellKinded(c.candle)
    && c.instrumentInfo.kind == InstrumentInfo && WellKinded(c.instrumentInfo)
    && c.orderbook.kind == Orderbook && WellKinded(c.orderbook)
  }

  /** `Streaming.__init__`: an empty token raises; otherwise three fresh APIs
      without a socket and an empty queue. The HTTP session may be supplied by
      the caller, already closed. */
  function NewStreaming(token: string, reconnectEnabled: bool, sessionClosed: bool): (r: Outcome<Streaming, Exception>)
    ensures r.Raised? <==> token == ""
    ensures r.Raised? ==> r.error == ValueError(EMPTY_TOKEN_MESSAGE)
    ensures r.Ok? ==> Valid(r.value) && r.value.token == token && r.value.reconnectEnabled == reconnectEnabled
    ensures r.Ok? ==> r.value.queue == [] && r.value.trace == []
    ensures r.Ok? ==> Registered(r.value) == {} && !AnyCanSend(r.value)
    ensures r.Ok? ==> r.value.sessionClosed == sessionClosed
    ensures r.Ok? ==>
      r.value.candle.ws == Detached && r.value.instrumentInfo.ws == Detached && r.value.orderbook.ws == Detached
  {
    match ValidateToken(token)
    case Raised(e) => Raised(e)
    case Ok(_) =>
      Ok(Streaming(token, reconnectEnabled, sessionClosed,
                   NewEventApi(Candle), NewEventApi(InstrumentInfo), NewEventApi(Orderbook), [], []))
  }

  /** Every record registered with any of the three APIs. */
  function Registered(c: Streaming): set<Subscription> {
    c.candle.subscriptions + c.instrumentInfo.subscriptions + c.orderbook.subscriptions
  }

  predicate AnyCanSend(c: Streaming) {
    CanSend(c.candle.ws) || CanSend(c.instrumentInfo.ws) || CanSend(c.orderbook.ws)
  }

  /** The API a record is sent through: the one of its own kind. */
  function ApiOf(c: Streaming, s: Subscription): EventApi {
    match s
    case CandleSubscription(_, _, _) => c.candle
    case OrderbookSubscription(_, _, _) => c.orderbook
    case InstrumentInfoSubscription(_, _) => c.instrumentInfo
  }

  function WithApi(c: Streaming, s: Subscription, api: EventApi): (r: Streaming)
    ensures api == ApiOf(c, s) ==> r == c
    ensures ApiOf(r, s) == api
    ensures forall t :: SubscriptionKind(t) != SubscriptionKind(s) ==> ApiOf(r, t) == ApiOf(c, t)
    ensures r.trace == c.trace && r.queue == c.queue && r.sessionClosed == c.sessionClosed
      && r.token == c.token && r.reconnectEnabled == c.reconnectEnabled
    ensures forall x :: (x in api.subscriptions <==> x in ApiOf(c, s).subscriptions) ==>
      (x in Registered(r) <==> x in Registered(c))
  {
    match s
    case CandleSubscription(_, _, _) => c.(candle := api)
    case OrderbookSubscription(_, _, _) => c.(orderbook := api)
    case InstrumentInfoSubscription(_, _) => c.(instrumentInfo := api)
  }

  function Transmissions(msgs: seq<WireMessage>): (t: seq<Effect>)
    ensures |t| == |msgs|
  {
    if msgs == [] then [] else [Transmitted(msgs[0])] + Transmissions(msgs[1..])
  }

  lemma {:induction false} TransmissionsAt(msgs: seq<WireMessage>, i: nat)
    requires i < |msgs|
    ensures Transmissions(msgs)[i] == Transmitted(msgs[i])
    decreases i
  {
    if i > 0 {
      TransmissionsAt(msgs[1..], i - 1);
    }
  }

  // ---------------------------------------------------------------------------
  // subscribe / unsubscribe on the client's APIs
  // ---------------------------------------------------------------------------

  /** `streaming.candle.subscribe(...)` and its siblings: `_send` on the API of
      the record's kind, with the transmitted message appended to the trace. */
  function Request(c: Streaming, s: Subscription, isSubscription: bool): (r: Outcome<Streaming, Exception>)
    ensures !CanSend(ApiOf(c, s).ws) ==> r == Ok(c)
    ensures r.Raised? <==> CanSend(ApiOf(c, s).ws) && !isSubscription && s !in ApiOf(c, s).subscriptions
    ensures r.Raised? ==> r.error == KeyError
    ensures r.Ok? && CanSend(ApiOf(c, s).ws) ==>
      && (s in ApiOf(r.value, s).subscriptions <==> isSubscription)
      && r.value.trace == c.trace + [Transmitted(WireMessage(ActionEvent(ApiOf(c, s).kind, isSubscription), s))]
    ensures r.Ok? ==> r.value.queue == c.queue && r.value.sessionClosed == c.sessionClosed
    ensures r.Ok? ==> forall x :: x != s ==> (x in Registered(r.value) <==> x in Registered(c))
    ensures r.Ok? ==> r.value.token == c.token && r.value.reconnectEnabled == c.reconnectEnabled
    ensures r.Ok? ==> ApiOf(r.value, s).kind == ApiOf(c, s).kind && ApiOf(r.value, s).ws == ApiOf(c, s).ws
    ensures r.Ok? ==> forall t :: SubscriptionKind(t) != SubscriptionKind(s) ==> ApiOf(r.value, t) == ApiOf(c, t)
  {
    var api := ApiOf(c, s);
    match Send(api, s, isSubscription)
    case Raised(e) => Raised(e)
    case Ok(sent) =>
      var t := Transmissions(MessageSeq(sent.message));
      assert !CanSend(api.ws) ==> t == [] && c.trace + t == c.trace;
      assert CanSend(api.ws) ==> t == [Transmitted(WireMessage(ActionEvent(api.kind, isSubscription), s))];
      Ok(WithApi(c, s, sent.api).(trace := c.trace + t))
  }

  /** A request keeps the client's kinds in place. */
  lemma RequestKeepsValid(c: Streaming, s: Subscription, isSubscription: bool)
    requires Valid(c)
    ensures Request(c, s, isSubscription).Ok? ==> Valid(Request(c, s, isSubscription).value)
  {
    SendKeepsWellKinded(ApiOf(c, s), s, isSubscription);
  }

  /** Subscribing before any connection exists changes nothing: the record is
      not kept for the first connection's replay. */
  lemma SubscribeBeforeConnectIsDropped(token: string, reconnectEnabled: bool, sessionClosed: bool, s: Subscription)
    requires token != ""
    ensures var c := NewStreaming(token, reconnectEnabled, sessionClosed).value;
      Request(c, s, true) == Ok(c) && s !in Registered(c)
  {
  }

  // ---------------------------------------------------------------------------
  // _subscribe / _unsubscribe across the three APIs
  // ---------------------------------------------------------------------------

  /** The listing each API's registry is iterated in, one per API. */
  datatype Orders = Orders(candle: seq<Subscription>, instrumentInfo: seq<Subscription>, orderbook: seq<Subscription>)

  predicate Lists(c: Streaming, o: Orders) {
    && Enumerates(o.candle, c.candle.subscriptions)
    && Enumerates(o.instrumentInfo, c.instrumentInfo.subscriptions)
    && Enumerates(o.orderbook, c.orderbook.subscriptions)
  }

  /** The messages one `_subscribe_all` / `_unsubscribe_all` of an API sends. */
  function Announcements(api: EventApi, isSubscription: bool, order: seq<Subscription>): seq<WireMessage> {
    if CanSend(api.ws) then Announce(api.kind, isSubscription, order) else []
  }

  /** What `_subscribe` / `_unsubscribe` send in all: candle, then
      instrument_info, then orderbook. */
  function AllAnnouncements(c: Streaming, isSubscription: bool, o: Orders): seq<WireMessage> {
    Announcements(c.candle, isSubscription, o.candle)
    + Announcements(c.instrumentInfo, isSubscription, o.instrumentInfo)
    + Announcements(c.orderbook, isSubscription, o.orderbook)
  }

  /** `_subscribe`: replays every registry; nothing but the trace changes. */
  function Replay(c: Streaming, o: Orders): (r: Streaming)
    requires Lists(c, o)
    ensures r == c.(trace := c.trace + Transmissions(AllAnnouncements(c, true, o)))
  {
    var b1 := SubscribeAll(c.candle, o.candle);
    var b2 := SubscribeAll(c.instrumentInfo, o.instrumentInfo);
    var b3 := SubscribeAll(c.orderbook, o.orderbook);
    c.(trace := c.trace + Transmissions(b1.messages + b2.messages + b3.messages))
  }

  /** `after` is `before` unsubscribed: same kind and socket, and the registry
      emptied when the socket was open, untouched otherwise. */
  predicate Emptied(before: EventApi, after: EventApi) {
    && after.kind == before.kind && after.ws == before.ws
    && after.subscriptions == (if CanSend(before.ws) then {} else before.subscriptions)
  }

  /** `_unsubscribe`: each API with an open socket unsubscribes every record and
      ends empty; an API without one is untouched. */
  function Unsubscribe(c: Streaming, o: Orders): (r: Streaming)
    requires Lists(c, o)
    ensures r.trace == c.trace + Transmissions(AllAnnouncements(c, false, o))
    ensures r.queue == c.queue && r.sessionClosed == c.sessionClosed && r.reconnectEnabled == c.reconnectEnabled
    ensures Emptied(c.candle, r.candle) && Emptied(c.instrumentInfo, r.instrumentInfo) && Emptied(c.orderbook, r.orderbook)
  {
    var b1 := UnsubscribeAll(c.candle, o.candle);
    var b2 := UnsubscribeAll(c.instrumentInfo, o.instrumentInfo);
    var b3 := UnsubscribeAll(c.orderbook, o.orderbook);
    UnsubscribeMessages(c, o);
    c.(candle := b1.api, instrumentInfo := b2.api, orderbook := b3.api,
       trace := c.trace + Transmissions(b1.messages + b2.messages + b3.messages))
  }

  lemma UnsubscribeMessages(c: Streaming, o: Orders)
    requires Lists(c, o)
    ensures UnsubscribeAll(c.candle, o.candle).messages
      + UnsubscribeAll(c.instrumentInfo, o.instrumentInfo).messages
      + UnsubscribeAll(c.orderbook, o.orderbook).messages == AllAnnouncements(c, false, o)
  {
  }

  // ---------------------------------------------------------------------------
  // _handle_ws
  // ---------------------------------------------------------------------------

  /** One message the socket delivered, or the exception its receive raised
      (a receive timeout, for one). */
  datatype WsMessage =
    | Text(frame: RawFrame)
    | ClosedMsg
    | ErrorMsg
    | OtherMsg
    | Fault(error: Exception)

  /** The state a coroutine left behind and the exception it raised, if any. */
  datatype Run = Run(state: Streaming, raised: Option<Exception>)

  /** `_set_ws` on all three APIs. */
  function Attach(c: Streaming, ws: Socket): Streaming {
    c.(candle := c.candle.(ws := ws), instrumentInfo := c.instrumentInfo.(ws := ws), orderbook := c.orderbook.(ws := ws))
  }

  function Enqueue(c: Streaming, item: QueueItem): Streaming {
    c.(queue := c.queue + [item], trace := c.trace + [Enqueued(item)])
  }

  function Enqueues(items: seq<QueueItem>): (t: seq<Effect>)
    ensures |t| == |items|
    ensures forall i :: 0 <= i < |t| ==> t[i].Enqueued?
  {
    if items == [] then [] else [Enqueued(items[0])] + Enqueues(items[1..])
  }

  function Items(ts: seq<TypedResponse>): (q: seq<QueueItem>)
    ensures |q| == |ts|
    ensures StopQueue !in q
  {
    if ts == [] then [] else [Item(ts[0])] + Items(ts[1..])
  }

  /** `put` of each response, in order. */
  function Deliver(c: Streaming, ts: seq<TypedResponse>): Streaming {
    c.(queue := c.queue + Items(ts), trace := c.trace + Enqueues(Items(ts)))
  }

  /** What the receive loop produced: the responses it enqueued, in order, and
      the exception that ended it, if any. */
  datatype Received = Received(accepted: seq<TypedResponse>, raised: Option<Exception>)

  /** The receive loop of `_handle_ws`: a text frame is parsed and enqueued,
      and a parse failure propagates; a CLOSED or ERROR message ends the loop;
      other message types are skipped. */
  function Receive(frames: seq<WsMessage>): (r: Received)
    ensures |r.accepted| <= |frames|
    ensures forall t :: t in r.accepted ==> Text(RenderFrame(Untyped(t))) in frames
    ensures r.raised.Some? ==> r.raised.value == ValidationError || Fault(r.raised.value) in frames
    decreases |frames|
  {
    if frames == [] then Received([], None)
    else match frames[0]
      case Text(f) =>
        (match ParseRaw(f)
         case Raised(e) => Received([], Some(e))
         case Ok(resp) =>
           match ParseResponse(resp)
           case Raised(e) => Received([], Some(e))
           case Ok(t) =>
             ParseResponseFaithful(resp);
             assert RenderFrame(Untyped(t)) == f;
             var rest := Receive(frames[1..]);
             Received([t] + rest.accepted, rest.raised))
      case ClosedMsg => Received([], None)
      case ErrorMsg => Received([], None)
      case OtherMsg => Receive(frames[1..])
      case Fault(e) => Received([], Some(e))
  }

  /** The text frames a server sends for a run of responses. */
  function TextFrames(ts: seq<TypedResponse>): (f: seq<WsMessage>)
    ensures |f| == |ts|
  {
    if ts == [] then [] else [Text(RenderFrame(Untyped(ts[0])))] + TextFrames(ts[1..])
  }

  /** Well-formed frames are enqueued in arrival order, none dropped, and the
      loop carries on with what follows them. */
  lemma {:induction false} ReceiveEnqueuesInOrder(ts: seq<TypedResponse>, rest: seq<WsMessage>)
    ensures Receive(TextFrames(ts) + rest) ==
      Received(ts + Receive(rest).accepted, Receive(rest).raised)
    decreases |ts|
  {
    if ts == [] {
      ReceiveNoText(ts, rest);
    } else {
      ReceiveTextStep(ts, rest);
      ReceiveEnqueuesInOrder(ts[1..], rest);
      ReceivedCons(ts, Receive(TextFrames(ts) + rest), Receive(TextFrames(ts[1..]) + rest), Receive(rest));
    }
  }

  /** Putting a response in front of what the rest of the loop accepted. */
  lemma ReceivedCons(ts: seq<TypedResponse>, whole: Received, tail: Received, after: Received)
    requires ts != []
    requires whole == Received([ts[0]] + tail.accepted, tail.raised)
    requires tail == Received(ts[1..] + after.accepted, after.raised)
    ensures whole == Received(ts + after.accepted, after.raised)
  {
    assert [ts[0]] + (ts[1..] + after.accepted) == ts + after.accepted;
  }

  lemma ReceiveNoText(ts: seq<TypedResponse>, rest: seq<WsMessage>)
    requires ts == []
    ensures Receive(TextFrames(ts) + rest) == Received(ts + Receive(rest).accepted, Receive(rest).raised)
  {
    assert TextFrames(ts) + rest == rest;
  }

  lemma ReceiveTextStep(ts: seq<TypedResponse>, rest: seq<WsMessage>)
    requires ts != []
    ensures var tail := Receive(TextFrames(ts[1..]) + rest);
      Receive(TextFrames(ts) + rest) == Received([ts[0]] + tail.accepted, tail.raised)
  {
    var tail := TextFrames(ts[1..]) + rest;
    assert TextFrames(ts) + rest == [Text(RenderFrame(Untyped(ts[0])))] + tail;
    ReceiveValidHead(ts[0], tail);
  }

  lemma ReceiveValidHead(t: TypedResponse, rest: seq<WsMessage>)
    ensures Receive([Text(RenderFrame(Untyped(t)))] + rest) ==
      Received([t] + Receive(rest).accepted, Receive(rest).raised)
  {
    ParseRawRoundTrip(Untyped(t));
    ParseResponseRoundTrip(t);
    var frames := [Text(RenderFrame(Untyped(t)))] + rest;
    assert frames[0] == Text(RenderFrame(Untyped(t)));
    assert frames[1..] == rest;
  }

  /** A frame that fails validation ends the loop with the validation error;
      nothing after it is read. */
  lemma ReceiveStopsAtInvalidFrame(f: RawFrame, rest: seq<WsMessage>)
    requires ParseRaw(f).Raised? || ParseResponse(ParseRaw(f).value).Raised?
    ensures Receive([Text(f)] + rest) == Received([], Some(ValidationError))
  {
    assert ([Text(f)] + rest)[0] == Text(f);
  }

  /** Messages of any other type (binary ones, say) are skipped: the loop
      carries on as if they had not arrived. */
  lemma {:induction false} ReceiveSkipsOther(others: seq<WsMessage>, rest: seq<WsMessage>)
    requires forall i :: 0 <= i < |others| ==> others[i].OtherMsg?
    ensures Receive(others + rest) == Receive(rest)
    decreases |others|
  {
    if others == [] {
      assert others + rest == rest;
    } else {
      assert (others + rest)[0] == others[0];
      assert (others + rest)[1..] == others[1..] + rest;
      ReceiveSkipsOther(others[1..], rest);
    }
  }

  /** A CLOSED or ERROR message ends the loop normally, whatever follows. */
  lemma ReceiveStopsAtClose(m: WsMessage, rest: seq<WsMessage>)
    requires m.ClosedMsg? || m.ErrorMsg?
    ensures Receive([m] + rest) == Received([], None)
  {
    assert ([m] + rest)[0] == m;
  }

  /** `_handle_ws`: attach the open socket to every API, replay the registries,
      set ready, then receive. */
  function HandleWs(c: Streaming, o: Orders, frames: seq<WsMessage>): (r: Run)
    requires Lists(c, o)
    ensures r.raised == Receive(frames).raised
    ensures r.state.queue == c.queue + Items(Receive(frames).accepted)
    ensures Lists(r.state, o) && Registered(r.state) == Registered(c)
    ensures r.state.candle.ws == Attached(true) && r.state.instrumentInfo.ws == Attached(true)
      && r.state.orderbook.ws == Attached(true)
    ensures r.state.sessionClosed == c.sessionClosed && r.state.reconnectEnabled == c.reconnectEnabled
    ensures c.trace <= r.state.trace
  {
    var attached := Attach(c, Attached(true));
    var replayed := Replay(attached, o);
    var ready := replayed.(trace := replayed.trace + [ReadySet]);
    var received := Receive(frames);
    Run(Deliver(ready, received.accepted), received.raised)
  }

  /** The handler announces every registered record, candle first, then
      instrument_info, then orderbook, before it sets ready; after that it only
      enqueues. The registries are left as they were. */
  lemma HandleWsReplaysBeforeReady(c: Streaming, o: Orders, frames: seq<WsMessage>)
    requires Lists(c, o)
    ensures ReadyAfter(HandleWs(c, o, frames).state.trace, c.trace, Transmissions(OpenReplay(c, o)))
    ensures Registered(HandleWs(c, o, frames).state) == Registered(c)
  {
    var t := HandleWs(c, o, frames).state.trace;
    var enqueues := Enqueues(Items(Receive(frames).accepted));
    HandleWsTrace(c, o, frames);
    ReadyThenEnqueues(c.trace, Transmissions(OpenReplay(c, o)), enqueues, t);
  }

  /** The handler's trace: the replay with every API's socket open, ready, then the enqueues. */
  lemma HandleWsTrace(c: Streaming, o: Orders, frames: seq<WsMessage>)
    requires Lists(c, o)
    ensures HandleWs(c, o, frames).state.trace ==
      c.trace + Transmissions(OpenReplay(c, o)) + [ReadySet] + Enqueues(Items(Receive(frames).accepted))
  {
    var attached := Attach(c, Attached(true));
    assert AllAnnouncements(attached, true, o) == OpenReplay(c, o);
  }

  /** `t` begins with `prefix` and `replay`, has `ReadySet` next, and holds
      only enqueues after it. */
  predicate ReadyAfter(t: seq<Effect>, prefix: seq<Effect>, replay: seq<Effect>) {
    var n := |prefix| + |replay|;
    && |t| > n
    && t[..n] == prefix + replay
    && t[n] == ReadySet
    && (forall i :: n < i < |t| ==> t[i].Enqueued?)
  }

  lemma ReadyThenEnqueues(prefix: seq<Effect>, replay: seq<Effect>, enqueues: seq<Effect>, t: seq<Effect>)
    requires t == prefix + replay + [ReadySet] + enqueues
    requires forall i :: 0 <= i < |enqueues| ==> enqueues[i].Enqueued?
    ensures ReadyAfter(t, prefix, replay)
  {
    var n := |prefix| + |replay|;
    assert t[..n] == prefix + replay;
    forall i | n < i < |t| ensures t[i].Enqueued? {
      assert t[i] == enqueues[i - n - 1];
    }
  }

  // ---------------------------------------------------------------------------
  // _connect and _run
  // ---------------------------------------------------------------------------

  /** What `_subscribe` sends once every API holds the open socket: each
      registry in turn, candle first, then instrument_info, then orderbook. */
  function OpenReplay(c: Streaming, o: Orders): seq<WireMessage> {
    Announce(c.candle.kind, true, o.candle)
    + Announce(c.instrumentInfo.kind, true, o.instrumentInfo)
    + Announce(c.orderbook.kind, true, o.orderbook)
  }

  /** The effects of one opened connection, in order: ws-closed cleared, the
      replay, ready set, the enqueued responses, then ws-closed set and ready
      cleared on the way out. */
  function ConnectionTrace(c: Streaming, o: Orders, frames: seq<WsMessage>): seq<Effect> {
    [WsClosedCleared] + Transmissions(OpenReplay(c, o)) + [ReadySet]
    + Enqueues(Items(Receive(frames).accepted)) + [WsClosedSet, ReadyCleared]
  }

  /** How one `ws_connect` went: it raised, or a connection opened and
      delivered these messages before it ended. */
  datatype Attempt = Refused(fault: Exception) | Opened(frames: seq<WsMessage>)

  /** The two exceptions `_connect` catches (and retries after a pause). */
  predicate Transient(e: Exception) {
    e.TimeoutError? || e.ClientConnectorError?
  }

  function Absorb(raised: Option<Exception>): Option<Exception> {
    if raised.Some? && Transient(raised.value) then None else raised
  }

  /** `_connect`. A closed session sets ready and ws-closed and raises
      `ClosedSessionError` without connecting. Otherwise a refused connection
      raises its fault unless it is transient; an opened one clears ws-closed,
      runs the handler, and on the way out leaves every API holding the closed
      socket, sets ws-closed and clears ready. A transient fault from the
      handler is absorbed; any other propagates. */
  function Connect(c: Streaming, o: Orders, attempt: Attempt): (r: Run)
    requires Lists(c, o)
    ensures c.sessionClosed ==>
      r == Run(c.(trace := c.trace + [ReadySet, WsClosedSet]), Some(ClosedSessionError))
    ensures !c.sessionClosed && attempt.Refused? ==>
      r == Run(c, if Transient(attempt.fault) then None else Some(attempt.fault))
    ensures r.raised.Some? && !c.sessionClosed ==> !Transient(r.raised.value)
    ensures Lists(r.state, o) && Registered(r.state) == Registered(c)
    ensures r.state.sessionClosed == c.sessionClosed && r.state.reconnectEnabled == c.reconnectEnabled
    ensures attempt.Opened? && !c.sessionClosed ==>
      && r.state.candle.ws == Attached(false) && r.state.instrumentInfo.ws == Attached(false)
      && r.state.orderbook.ws == Attached(false)
      && |r.state.trace| >= 2
      && r.state.trace[|r.state.trace| - 2] == WsClosedSet && r.state.trace[|r.state.trace| - 1] == ReadyCleared
    ensures attempt.Opened? && !c.sessionClosed ==>
      && r.state.queue == c.queue + Items(Receive(attempt.frames).accepted)
      && r.raised == Absorb(Receive(attempt.frames).raised)
    ensures attempt.Opened? && !c.sessionClosed ==>
      r.state.trace == c.trace + ConnectionTrace(c, o, attempt.frames)
    ensures !(attempt.Opened? && !c.sessionClosed) ==> r.state.queue == c.queue
    ensures c.trace <= r.state.trace
    ensures r.state.candle.kind == c.candle.kind && r.state.instrumentInfo.kind == c.instrumentInfo.kind
      && r.state.orderbook.kind == c.orderbook.kind
  {
    if c.sessionClosed then
      Run(c.(trace := c.trace + [ReadySet, WsClosedSet]), Some(ClosedSessionError))
    else match attempt
      case Refused(e) => Run(c, Absorb(Some(e)))
      case Opened(frames) => Session(c, o, frames)
  }

  /** One opened connection of `_connect`: ws-closed is cleared, the handler
      runs, and on the way out every API holds the closed socket, ws-closed is
      set and ready cleared; a transient fault from the handler is absorbed. */
  function Session(c: Streaming, o: Orders, frames: seq<WsMessage>): (r: Run)
    requires Lists(c, o)
    ensures Lists(r.state, o) && Registered(r.state) == Registered(c)
    ensures r.state.sessionClosed == c.sessionClosed && r.state.reconnectEnabled == c.reconnectEnabled
    ensures r.state.candle.kind == c.candle.kind && r.state.instrumentInfo.kind == c.instrumentInfo.kind
      && r.state.orderbook.kind == c.orderbook.kind
    ensures r.state.candle.ws == Attached(false) && r.state.instrumentInfo.ws == Attached(false)
      && r.state.orderbook.ws == Attached(false)
    ensures r.state.queue == c.queue + Items(Receive(frames).accepted)
    ensures r.raised == Absorb(Receive(frames).raised)
    ensures r.state.trace == c.trace + ConnectionTrace(c, o, frames)
  {
    var live := c.(trace := c.trace + [WsClosedCleared]);
    var handled := HandleWs(live, o, frames);
    HandleWsTrace(live, o, frames);
    var closed := Attach(handled.state, Attached(false));
    SessionTraceShape(c.trace, Transmissions(OpenReplay(c, o)), Enqueues(Items(Receive(frames).accepted)));
    Run(closed.(trace := closed.trace + [WsClosedSet, ReadyCleared]), Absorb(handled.raised))
  }

  /** Regrouping the effects of one connection after the trace that came before it. */
  lemma SessionTraceShape(prefix: seq<Effect>, replay: seq<Effect>, enqueues: seq<Effect>)
    ensures prefix + [WsClosedCleared] + replay + [ReadySet] + enqueues + [WsClosedSet, ReadyCleared]
      == prefix + ([WsClosedCleared] + replay + [ReadySet] + enqueues + [WsClosedSet, ReadyCleared])
  {
  }

  /** Where `_run` got to: it returned, it raised, or it is still connecting
      when the attempts run out. */
  datatype RunOutcome = Finished(state: Streaming) | Crashed(state: Streaming, error: Exception) | Pending(state: Streaming)

  /** `_run`: each element of `attempts` is what the environment does on one
      `_connect` call (a call that finds the session closed does not look at
      it). Without reconnection, one call and its exception propagates; with
      it, the loop repeats until `ClosedSessionError` ends it, and any other
      exception propagates. */
  function RunLoop(c: Streaming, o: Orders, attempts: seq<Attempt>): (r: RunOutcome)
    requires Lists(c, o)
    ensures Lists(r.state, o) && Registered(r.state) == Registered(c)
    ensures c.queue <= r.state.queue && c.trace <= r.state.trace
    ensures r.Crashed? ==> !Transient(r.error)
    ensures r.Crashed? && c.reconnectEnabled ==> !r.error.ClosedSessionError?
    ensures attempts == [] ==> r == Pending(c)
    ensures !c.reconnectEnabled && attempts != [] ==> !r.Pending?
    ensures c.reconnectEnabled && attempts != [] && Connect(c, o, attempts[0]).raised.None? ==>
      r == RunLoop(Connect(c, o, attempts[0]).state, o, attempts[1..])
    ensures !c.reconnectEnabled && attempts != [] ==>
      var step := Connect(c, o, attempts[0]);
      && r.state == step.state
      && (r.Crashed? <==> step.raised.Some?)
      && (r.Crashed? ==> r.error == step.raised.value)
    ensures c.reconnectEnabled && attempts != [] && Connect(c, o, attempts[0]).raised.Some? ==>
      var step := Connect(c, o, attempts[0]);
      && r.state == step.state
      && (step.raised.value.ClosedSessionError? ==> r.Finished?)
      && (!step.raised.value.ClosedSessionError? ==> r == Crashed(step.state, step.raised.value))
    decreases |attempts|
  {
    if attempts == [] then Pending(c)
    else
      var step := Connect(c, o, attempts[0]);
      if !c.reconnectEnabled then
        (match step.raised
         case None => Finished(step.state)
         case Some(e) => Crashed(step.state, e))
      else
        match step.raised
        case None => RunLoop(step.state, o, attempts[1..])
        case Some(e) => if e.ClosedSessionError? then Finished(step.state) else Crashed(step.state, e)
  }

  /** With reconnection, a connection that ends without a fatal error is
      followed by the next: the second connection replays every registry again
      and sets ready again, and the responses of both are kept in the queue. */
  lemma RunReconnectsAndReplays(c: Streaming, o: Orders, f1: seq<WsMessage>, f2: seq<WsMessage>, later: seq<Attempt>)
    requires Lists(c, o) && c.reconnectEnabled && !c.sessionClosed
    requires Absorb(Receive(f1).raised).None?
    ensures var r := RunLoop(c, o, [Opened(f1), Opened(f2)] + later);
      && c.trace + ConnectionTrace(c, o, f1) + ConnectionTrace(c, o, f2) <= r.state.trace
      && c.queue + Items(Receive(f1).accepted) + Items(Receive(f2).accepted) <= r.state.queue
  {
    assert [Opened(f1), Opened(f2)] + later == [Opened(f1)] + ([Opened(f2)] + later);
    var first := Connect(c, o, Opened(f1));
    RunAfterConnection(c, o, Opened(f1), [Opened(f2)] + later);
    RunAfterConnection(first.state, o, Opened(f2), later);
    var second := Connect(first.state, o, Opened(f2));
    assert first.state.trace == c.trace + ConnectionTrace(c, o, f1);
    assert OpenReplay(first.state, o) == OpenReplay(c, o);
    assert second.state.trace == first.state.trace + ConnectionTrace(c, o, f2);
    assert second.state.queue == first.state.queue + Items(Receive(f2).accepted);
  }

  /** With reconnection, the run keeps what its first connection did, and a
      connection that ends without a fatal error is followed by the rest. */
  lemma RunAfterConnection(c: Streaming, o: Orders, a: Attempt, later: seq<Attempt>)
    requires Lists(c, o) && c.reconnectEnabled
    ensures var first := Connect(c, o, a);
      && first.state.trace <= RunLoop(c, o, [a] + later).state.trace
      && first.state.queue <= RunLoop(c, o, [a] + later).state.queue
      && (first.raised.None? ==> RunLoop(c, o, [a] + later) == RunLoop(first.state, o, later))
  {
    assert ([a] + later)[0] == a && ([a] + later)[1..] == later;
  }

  /** Without reconnection only the first attempt matters, and the run ends with it. */
  lemma RunWithoutReconnectConnectsOnce(c: Streaming, o: Orders, attempts: seq<Attempt>)
    requires Lists(c, o) && !c.reconnectEnabled && attempts != []
    ensures RunLoop(c, o, attempts) == RunLoop(c, o, attempts[..1])
    ensures !RunLoop(c, o, attempts).Pending?
    ensures var step := Connect(c, o, attempts[0]);
      RunLoop(c, o, attempts) ==
        (if step.raised.None? then Finished(step.state) else Crashed(step.state, step.raised.value))
  {
  }

  /** With reconnection, a closed session ends the loop normally, after ready
      and ws-closed are set. */
  lemma RunEndsOnClosedSession(c: Streaming, o: Orders, attempts: seq<Attempt>)
    requires Lists(c, o) && c.reconnectEnabled && c.sessionClosed && attempts != []
    ensures RunLoop(c, o, attempts) == Finished(c.(trace := c.trace + [ReadySet, WsClosedSet]))
  {
  }

  /** Without reconnection the closed-session error is not caught: it ends the run. */
  lemma RunWithoutReconnectRaisesOnClosedSession(c: Streaming, o: Orders, attempts: seq<Attempt>)
    requires Lists(c, o) && !c.reconnectEnabled && c.sessionClosed && attempts != []
    ensures RunLoop(c, o, attempts).Crashed? && RunLoop(c, o, attempts).error == ClosedSessionError
  {
  }

  /** Timeouts and connector errors are retried for as long as they last,
      changing nothing. */
  lemma {:induction false} RunRetriesTransientFailures(c: Streaming, o: Orders, attempts: seq<Attempt>)
    requires Lists(c, o) && c.reconnectEnabled && !c.sessionClosed
    requires forall i :: 0 <= i < |attempts| ==> attempts[i].Refused? && Transient(attempts[i].fault)
    ensures RunLoop(c, o, attempts) == Pending(c)
    decreases |attempts|
  {
    if attempts != [] {
      RunRetriesTransientFailures(c, o, attempts[1..]);
    }
  }

  /** A frame that fails validation is not dropped: it ends the connection and
      the run, reconnection or not. */
  lemma RunCrashesOnInvalidFrame(c: Streaming, o: Orders, f: RawFrame, rest: seq<WsMessage>, later: seq<Attempt>)
    requires Lists(c, o) && !c.sessionClosed
    requires ParseRaw(f).Raised? || ParseResponse(ParseRaw(f).value).Raised?
    ensures RunLoop(c, o, [Opened([Text(f)] + rest)] + later).Crashed?
    ensures RunLoop(c, o, [Opened([Text(f)] + rest)] + later).error == ValidationError
  {
    ReceiveStopsAtInvalidFrame(f, rest);
    var attempts := [Opened([Text(f)] + rest)] + later;
    assert attempts[0] == Opened([Text(f)] + rest);
    assert Connect(c, o, attempts[0]).raised == Some(ValidationError);
  }

  // ---------------------------------------------------------------------------
  // stop and consumption
  // ---------------------------------------------------------------------------

  /** What `stop` leaves of one API: unsubscribed and holding the closed
      socket when its socket was open, untouched otherwise. */
  predicate StoppedApi(before: EventApi, after: EventApi) {
    && after.kind == before.kind
    && after.subscriptions == (if CanSend(before.ws) then {} else before.subscriptions)
    && after.ws == (if CanSend(before.ws) then Attached(false) else before.ws)
  }

  /** `_close_ws` closing the socket an API holds, if it is open. */
  function CloseApi(api: EventApi): EventApi {
    if CanSend(api.ws) then api.(ws := Attached(false)) else api
  }

  /** `stop`: unsubscribe everything, enqueue `STOP_QUEUE`, wait until the open
      socket has been closed (ws-closed is set), then close the session. */
  function Stop(c: Streaming, o: Orders): (r: Streaming)
    requires Lists(c, o)
    ensures r.sessionClosed && r.queue == c.queue + [StopQueue]
    ensures r.token == c.token && r.reconnectEnabled == c.reconnectEnabled
    ensures r.trace == c.trace + Transmissions(AllAnnouncements(c, false, o)) + [Enqueued(StopQueue)]
      + (if AnyCanSend(c) then [WsClosedSet] else [])
    ensures StoppedApi(c.candle, r.candle) && StoppedApi(c.instrumentInfo, r.instrumentInfo)
      && StoppedApi(c.orderbook, r.orderbook)
    ensures !AnyCanSend(r)
    ensures Valid(c) ==> forall s :: s in Registered(c) && CanSend(ApiOf(c, s).ws) ==> s !in Registered(r)
  {
    var u := Unsubscribe(c, o);
    var queued := Enqueue(u, StopQueue);
    queued.(candle := CloseApi(queued.candle), instrumentInfo := CloseApi(queued.instrumentInfo),
            orderbook := CloseApi(queued.orderbook), sessionClosed := true,
            trace := queued.trace + (if AnyCanSend(c) then [WsClosedSet] else []))
  }

  /** Once `stop` has returned the socket is closed, so a later subscribe or
      unsubscribe on any API sends nothing and changes nothing. */
  lemma RequestAfterStopIsDropped(c: Streaming, o: Orders, s: Subscription, isSubscription: bool)
    requires Lists(c, o)
    ensures Request(Stop(c, o), s, isSubscription) == Ok(Stop(c, o))
  {
  }

  /** Every record registered on an open socket is announced as unsubscribed
      before the sentinel is enqueued. */
  lemma StopUnsubscribesBeforeSentinel(c: Streaming, o: Orders, s: Subscription)
    requires Lists(c, o) && Valid(c)
    requires s in Registered(c) && CanSend(ApiOf(c, s).ws)
    ensures var r := Stop(c, o);
      exists i, j :: |c.trace| <= i < j < |r.trace| &&
        r.trace[i] == Transmitted(WireMessage(ActionEvent(SubscriptionKind(s), false), s)) &&
        r.trace[j] == Enqueued(StopQueue)
  {
    var r := Stop(c, o);
    var all := AllAnnouncements(c, false, o);
    var k := UnsubscriptionAnnounced(c, o, s);
    TransmissionsAt(all, k);
    SentinelAfter(c.trace, Transmissions(all), (if AnyCanSend(c) then [WsClosedSet] else []), k, r.trace);
  }

  /** In a prefix, a run of effects, the sentinel and a tail, each effect of
      the run comes after the prefix and before the sentinel. */
  lemma SentinelAfter(prefix: seq<Effect>, run: seq<Effect>, tail: seq<Effect>, k: nat, t: seq<Effect>)
    requires k < |run|
    requires t == prefix + run + [Enqueued(StopQueue)] + tail
    ensures |prefix| + |run| < |t|
    ensures t[|prefix| + k] == run[k] && t[|prefix| + |run|] == Enqueued(StopQueue)
  {
  }

  /** Where in the unsubscribe messages a registered record is announced. */
  lemma UnsubscriptionAnnounced(c: Streaming, o: Orders, s: Subscription) returns (k: nat)
    requires Lists(c, o) && Valid(c)
    requires s in Registered(c) && CanSend(ApiOf(c, s).ws)
    ensures k < |AllAnnouncements(c, false, o)|
    ensures AllAnnouncements(c, false, o)[k] == WireMessage(ActionEvent(SubscriptionKind(s), false), s)
  {
    var a1 := Announcements(c.candle, false, o.candle);
    var a2 := Announcements(c.instrumentInfo, false, o.instrumentInfo);
    match s {
      case CandleSubscription(_, _, _) =>
        var j :| 0 <= j < |o.candle| && o.candle[j] == s;
        k := j;
      case InstrumentInfoSubscription(_, _) =>
        var j :| 0 <= j < |o.instrumentInfo| && o.instrumentInfo[j] == s;
        k := |a1| + j;
      case OrderbookSubscription(_, _, _) =>
        var j :| 0 <= j < |o.orderbook| && o.orderbook[j] == s;
        k := |a1| + |a2| + j;
    }
  }

  /** What the consumer takes off the queue: the responses before the first
      sentinel, whatever follows it, and whether a sentinel was met. */
  datatype Drained = Drained(events: seq<TypedResponse>, rest: seq<QueueItem>, stopped: bool)

  /** The `async for` of `__aiter__` over the queue's current contents. */
  function Drain(q: seq<QueueItem>): (d: Drained)
    ensures d.stopped <==> StopQueue in q
    ensures d.stopped ==> q == Items(d.events) + [StopQueue] + d.rest
    ensures !d.stopped ==> q == Items(d.events) && d.rest == []
    decreases |q|
  {
    if q == [] then Drained([], [], false)
    else match q[0]
      case StopQueue => Drained([], q[1..], true)
      case Item(t) =>
        var d := Drain(q[1..]);
        DrainItem(q, d);
        Drained([t] + d.events, d.rest, d.stopped)
  }

  /** One step of `Drain` past a response: what holds of the rest of the
      queue holds of the whole queue with the response in front. */
  lemma DrainItem(q: seq<QueueItem>, d: Drained)
    requires q != [] && q[0].Item?
    requires d.stopped <==> StopQueue in q[1..]
    requires d.stopped ==> q[1..] == Items(d.events) + [StopQueue] + d.rest
    requires !d.stopped ==> q[1..] == Items(d.events) && d.rest == []
    ensures var events := [q[0].response] + d.events;
      && (d.stopped <==> StopQueue in q)
      && (d.stopped ==> q == Items(events) + [StopQueue] + d.rest)
      && (!d.stopped ==> q == Items(events))
  {
    var t := q[0].response;
    assert q == [Item(t)] + q[1..];
    ItemsCons(t, d.events);
  }

  lemma ItemsCons(t: TypedResponse, ts: seq<TypedResponse>)
    ensures Items([t] + ts) == [Item(t)] + Items(ts)
  {
    assert ([t] + ts)[1..] == ts;
  }

  /** The result of consuming: the client afterwards, the responses yielded,
      and whether iteration ended. */
  datatype Consumed = Consumed(state: Streaming, events: seq<TypedResponse>, finished: bool)

  /** `__aiter__`: yield queued responses up to the sentinel; on reaching it,
      unsubscribe everything (the `finally`). Without a sentinel the consumer
      is still waiting and nothing is unsubscribed. */
  function Consume(c: Streaming, o: Orders): (r: Consumed)
    requires Lists(c, o)
    ensures r.finished <==> StopQueue in c.queue
    ensures r.finished ==> c.queue == Items(r.events) + [StopQueue] + r.state.queue
    ensures !r.finished ==> c.queue == Items(r.events) && r.state == c.(queue := [])
    ensures r.finished && Valid(c) ==>
      forall s :: s in Registered(c) && CanSend(ApiOf(c, s).ws) ==> s !in Registered(r.state)
    ensures r.finished ==> r.state.trace == c.trace + Transmissions(AllAnnouncements(c, false, o))
    ensures r.finished ==>
      && Emptied(c.candle, r.state.candle)
      && Emptied(c.instrumentInfo, r.state.instrumentInfo)
      && Emptied(c.orderbook, r.state.orderbook)
    ensures r.state.sessionClosed == c.sessionClosed && r.state.reconnectEnabled == c.reconnectEnabled
  {
    var d := Drain(c.queue);
    var drained := c.(queue := d.rest);
    if d.stopped then Consumed(Unsubscribe(drained, o), d.events, true)
    else Consumed(drained, d.events, false)
  }

  /** The consumer takes every response queued before the first sentinel, in
      order, and leaves exactly what follows the sentinel. */
  lemma {:induction false} DrainUpToSentinel(ts: seq<TypedResponse>, rest: seq<QueueItem>)
    ensures Drain(Items(ts) + [StopQueue] + rest) == Drained(ts, rest, true)
    decreases |ts|
  {
    var q := Items(ts) + [StopQueue] + rest;
    if ts == [] {
      assert q == [StopQueue] + rest;
      assert q[1..] == rest;
    } else {
      assert Items(ts) == [Item(ts[0])] + Items(ts[1..]);
      assert q[0] == Item(ts[0]);
      assert q[1..] == Items(ts[1..]) + [StopQueue] + rest;
      DrainUpToSentinel(ts[1..], rest);
      assert [ts[0]] + ts[1..] == ts;
    }
  }

  /** After `stop`, a consumer receives every response that was pending, in
      order, and then ends with an empty queue. */
  lemma StopThenConsume(c: Streaming, o: Orders, o2: Orders, pending: seq<TypedResponse>)
    requires Lists(c, o) && c.queue == Items(pending)
    requires Lists(Stop(c, o), o2)
    ensures var r := Consume(Stop(c, o), o2);
      r.finished && r.events == pending && r.state.queue == [] && r.state.trace == Stop(c, o).trace
  {
    var s := Stop(c, o);
    assert s.queue == Items(pending) + [StopQueue] + [];
    DrainUpToSentinel(pending, []);
  }
}

=== FILE: typedefs.dfy ===
/** Scalar types shared by the schemas: decimals, timestamps and "datetime or string" arguments. */
module Typedefs {

  /** pydantic `Decimal` fields; an exact rational stands in for Python's decimal. */
  type Decimal = real

  /** A naive `datetime`, field by field as Python keeps it. */
  datatype DateTime = DateTime(year: nat, month: nat, day: nat, hour: nat, minute: nat, second: nat, microsecond: nat)

  /** The `datetime_or_str` argument type of the REST builders. */
  datatype DateTimeOrStr = Str(text: string) | Stamp(dt: DateTime)
}

=== FILE: utils.dfy ===
/** Helpers shared by the REST clients: keyword arguments of a transport call,
    default headers, timestamp rendering and token validation. */
module Utils {
  import opened Wrappers
  import opened Exceptions
  import opened Typedefs
  import opened Schemas

  /** A query parameter value: builders put strings and (for `depth`) integers. */
  datatype ParamValue = PStr(s: string) | PInt(i: int)

  type Params = map<string, ParamValue>

  type Headers = map<string, string>

  /** A value of the `**kwargs` dictionary handed to the transport. */
  datatype KwValue =
    | HeadersArg(headers: Headers)
    | ParamsArg(params: Params)
    | DataArg(body: RequestBody)
    | FlagArg(flag: bool)

  type Kwargs = map<string, KwValue>

  /** `set_default_headers` calls `setdefault` on whatever `data['headers']`
      holds; callers keep it a header dictionary. */
  predicate HeadersWellTyped(data: Kwargs) {
    "headers" in data ==> data["headers"].HeadersArg?
  }

  /** `data.get('headers', {})`. */
  function ExistingHeaders(data: Kwargs): Headers
    requires HeadersWellTyped(data)
  {
    if "headers" in data then data["headers"].headers else map[]
  }

  const ACCEPT_JSON: string := "application/json"

  function BearerAuthorization(token: string): string {
    "Bearer " + token
  }

  /** Adds `accept` and `Authorization` headers unless already present; existing
      headers are kept as they are and no key of `data` but `headers` changes. */
  function SetDefaultHeaders(data: Kwargs, token: string): (r: Kwargs)
    requires HeadersWellTyped(data)
    ensures r.Keys == data.Keys + {"headers"}
    ensures forall k :: k in data && k != "headers" ==> r[k] == data[k]
    ensures HeadersWellTyped(r) && "headers" in r
    ensures ExistingHeaders(r).Keys == ExistingHeaders(data).Keys + {"accept", "Authorization"}
    ensures forall k :: k in ExistingHeaders(data) ==> ExistingHeaders(r)[k] == ExistingHeaders(data)[k]
    ensures "accept" !in ExistingHeaders(data) ==> ExistingHeaders(r)["accept"] == ACCEPT_JSON
    ensures "Authorization" !in ExistingHeaders(data) ==>
      ExistingHeaders(r)["Authorization"] == BearerAuthorization(token)
  {
    var headers := ExistingHeaders(data);
    var withAccept := if "accept" in headers then headers else headers["accept" := ACCEPT_JSON];
    var withAuth :=
      if "Authorization" in withAccept then withAccept
      else withAccept["Authorization" := BearerAuthorization(token)];
    data["headers" := HeadersArg(withAuth)]
  }

  /** Setting the defaults twice is setting them once, whatever token the second call uses. */
  lemma SetDefaultHeadersIdempotent(data: Kwargs, token: string, token2: string)
    requires HeadersWellTyped(data)
    ensures SetDefaultHeaders(SetDefaultHeaders(data, token), token2) == SetDefaultHeaders(data, token)
  {
    var once := SetDefaultHeaders(data, token);
    var twice := SetDefaultHeaders(once, token2);
    assert ExistingHeaders(twice) == ExistingHeaders(once);
    assert twice.Keys == once.Keys;
  }

  /** On empty keyword arguments the result is exactly the two default headers. */
  lemma SetDefaultHeadersOnEmpty(token: string)
    ensures SetDefaultHeaders(map[], token) ==
      map["headers" := HeadersArg(map["accept" := ACCEPT_JSON, "Authorization" := "Bearer " + token])]
  {
  }

  /** A caller's own `Authorization` header wins; other headers pass through. */
  lemma SetDefaultHeadersKeepsCallerHeaders(token: string)
    ensures SetDefaultHeaders(
      map["headers" := HeadersArg(map["Authorization" := "Bearer <OTHER_TOKEN>", "X-Custom-Header" := "value"])],
      token) ==
      map["headers" := HeadersArg(map[
        "accept" := ACCEPT_JSON,
        "Authorization" := "Bearer <OTHER_TOKEN>",
        "X-Custom-Header" := "value"])]
  {
    var h := map["Authorization" := "Bearer <OTHER_TOKEN>", "X-Custom-Header" := "value"];
    var expected := map["accept" := ACCEPT_JSON, "Authorization" := "Bearer <OTHER_TOKEN>", "X-Custom-Header" := "value"];
    assert h["accept" := ACCEPT_JSON] == expected;
  }

  // ---------------------------------------------------------------------------
  // isoformat
  // ---------------------------------------------------------------------------

  /** Decimal digits of `n`, most significant first; "0" for zero. */
  function Digits(n: nat): (s: string)
    ensures |s| >= 1
    ensures forall i :: 0 <= i < |s| ==> '0' <= s[i] <= '9'
  {
    if n < 10 then [(n + '0' as int) as char]
    else Digits(n / 10) + [((n % 10) + '0' as int) as char]
  }

  function Zeros(k: nat): string {
    seq(k, _ => '0')
  }

  /** `n` in decimal, left-padded with zeros to at least `width` characters. */
  function Pad(n: nat, width: nat): string {
    var d := Digits(n);
    if |d| >= width then d else Zeros(width - |d|) + d
  }

  /** `dt.replace(tzinfo=timezone.utc).isoformat()` for a naive datetime:
      microseconds appear only when non-zero, the offset is always `+00:00`. */
  function RenderUtc(dt: DateTime): string {
    Pad(dt.year, 4) + "-" + Pad(dt.month, 2) + "-" + Pad(dt.day, 2)
    + "T" + Pad(dt.hour, 2) + ":" + Pad(dt.minute, 2) + ":" + Pad(dt.second, 2)
    + (if dt.microsecond == 0 then "" else "." + Pad(dt.microsecond, 6))
    + "+00:00"
  }

  /** A string argument is passed through unchanged; a datetime is rendered in UTC. */
  function Isoformat(dt: DateTimeOrStr): (r: string)
    ensures dt.Str? ==> r == dt.text
    ensures dt.Stamp? ==> |r| >= 6 && r[|r| - 6..] == "+00:00"
  {
    match dt
    case Str(text) => text
    case Stamp(d) => RenderUtc(d)
  }

  /** Both example arguments render to the same text: the string as given, the
      naive datetime of midnight 2000-01-01 with a UTC offset. */
  lemma IsoformatExamples()
    ensures Isoformat(Str("2000-01-01T00:00:00+00:00")) == "2000-01-01T00:00:00+00:00"
    ensures Isoformat(Stamp(DateTime(2000, 1, 1, 0, 0, 0, 0))) == "2000-01-01" + "T00:00:00" + "+00:00"
  {
    var d := DateTime(2000, 1, 1, 0, 0, 0, 0);
    var date := Pad(d.year, 4) + "-" + Pad(d.month, 2) + "-" + Pad(d.day, 2);
    var time := "T" + Pad(d.hour, 2) + ":" + Pad(d.minute, 2) + ":" + Pad(d.second, 2);
    RenderExampleParts();
    assert RenderUtc(d) == date + time + "" + "+00:00";
  }

  /** The date and time parts of the midnight 2000-01-01 example. */
  lemma RenderExampleParts()
    ensures Pad(2000, 4) + "-" + Pad(1, 2) + "-" + Pad(1, 2) == "2000-01-01"
    ensures "T" + Pad(0, 2) + ":" + Pad(0, 2) + ":" + Pad(0, 2) == "T00:00:00"
  {
    PadExamples();
  }

  lemma PadExamples()
    ensures Pad(2000, 4) == "2000"
    ensures Pad(1, 2) == "01"
    ensures Pad(0, 2) == "00"
  {
    assert Digits(2) == "2";
    assert Digits(20) == "20";
    assert Digits(200) == "200";
    assert Digits(2000) == "2000";
    assert Zeros(1) == "0";
  }

  /** Token validation: raises `ValueError` exactly for the empty token. */
  function ValidateToken(token: string): (r: Outcome<(), Exception>)
    ensures r.Raised? <==> token == ""
    ensures r.Raised? ==> r.error == ValueError(EMPTY_TOKEN_MESSAGE)
  {
    if token == "" then Raised(ValueError(EMPTY_TOKEN_MESSAGE)) else Ok(())
  }
}

=== FILE: wrappers.dfy ===
/** Optional values and the outcome of a call that may raise. */
module Wrappers {

  /** Python's `Optional[T]`: `None` or a present value. */
  datatype Option<+T> = None | Some(value: T)

  /** The result of a Python call: the value it returned, or the exception it raised. */
  datatype Outcome<+T, +E> = Ok(value: T) | Raised(error: E)

  /** Python truthiness of an optional string: present and non-empty. */
  predicate Truthy(s: Option<string>) {
    s.Some? && s.value != ""
  }
}
